=== FILE: README.md ===
# rtc-mem-bench, modelled in Dafny

rtc-mem-bench measures how much memory a real-time chat server needs as
clients join it. Three programs take part, and this project models the core
of each:

- **The telemetry orchestrator** (`telemetry/src/index.ts`,
  `telemetry/src/docker.ts`). It ensures the Docker network exists and starts
  the server container, then starts client containers one batch at a time,
  each after the previous batch reported that its target number of rooms
  was created. It absorbs each client's stdout reports into a per-client
  dump. Every interval it writes one CSV row of totals and the server's
  memory, and it zeroes the loop accumulators. Cleanup starts at most once:
  on the first exit of a watched container, on SIGINT, or when `main`
  rejects. It deletes the containers registered at that moment. A container
  that was created but never started is never registered. Containers
  registered after cleanup began are not deleted. SIGINT with nothing
  registered exits without deleting anything.
- **The benchmark client** (`client/src/*.rs`). It parses its command line
  (`args.rs`) and keeps shared counters (`state.rs`), which it dumps and
  resets. It exchanges JSON messages (`messages.rs`) over a WebSocket
  transport (`transporters/mod.rs`, `transporters/ws.rs`).
- **A Bun chat relay** used as one server under test (`js/bun/index.ts`). It
  upgrades `/ws?username=…&room=…`, subscribes the socket to its room, and
  republishes each `sendMessage` as a timestamped `message`.

Modules: `Wrappers` (Option, Result, Outcome), `Strings` (JavaScript
`split`/`join`/`indexOf`/`replace`, Rust `contains`, decimal numbers), `Json`
(JSON values and JavaScript property access), `Urls` (query pairs),
`Messages`, `Transports`, `WsTransport`, `ClientArgs`, `ClientState`,
`ChatServer`, `Docker`, `Telemetry`, and `Compat`. `Compat` holds lemmas
about how the programs fit together.

Modelling choices:

- Text is parsed to JSON outside the model. A text frame, a message or a
  stdout line carries a `Document`: either a parsed JSON value or malformed
  text.
- The Docker daemon's answers (create, start, status, logs, stats, delete,
  network list and create) are parameters. The requests the orchestrator
  makes and its process exits are kept in a ghost effect log on
  `Docker.Session`.
- Clocks are parameters: ISO timestamps, durations, and the server clock of
  the relay. The `url` crate's parser is a parameter of `ClientArgs`. Whether
  `set_scheme("ws")` succeeds is a boolean parameter of `HandshakeUrl`.
- Only the newest batch's promise is tracked, as a `pending` flag: the loop
  awaits only that one, and resolving an older batch's promise changes
  nothing.
- Asynchronous callbacks (stdout data, stats data, container exit, SIGINT,
  the dumper's interval, one turn of the batch loop) become methods that the
  environment calls in some order.
- The orchestrator's options arrive already validated, as natural numbers.

## Model

| member | source | states |
|---|---|---|
| Strings.Split | telemetry/src/docker.ts:37 | `split(" ")` yields at least one field, and no field holds the separator |
| Strings.JoinSplit | telemetry/src/docker.ts:37 | joining the fields of a split with the same separator gives back the string |
| Strings.SplitWithoutSeparator | telemetry/src/docker.ts:37 | a string without the separator splits into itself alone |
| Strings.SplitAfterField | telemetry/src/docker.ts:37 | a separator-free field followed by the separator splits off as the first field |
| Strings.SplitJoin | telemetry/src/docker.ts:37 | splitting a join of separator-free fields gives back exactly those fields |
| Strings.IndexOfFrom | telemetry/src/index.ts:47 | the result is the first occurrence of the pattern at or after `from`; None means no occurrence there |
| Strings.ContainsIffOccurs | client/src/args.rs:35 | `contains` holds exactly when the pattern occurs at some index |
| Strings.IndexOfFindsFirst | telemetry/src/index.ts:47 | an occurrence with none before it is the one `indexOf` returns |
| Strings.ReplaceFirst | telemetry/src/index.ts:47 | `replace` with a string pattern: without an occurrence the string is unchanged; otherwise the text before the first occurrence is kept, the replacement takes the pattern's place, and the text after it is kept |
| Strings.ReplaceFirstAt | telemetry/src/index.ts:47 | with a first occurrence at `i`, `replace` puts the replacement there and keeps everything before and after |
| Strings.ReplaceFirstAbsent | telemetry/src/index.ts:47 | `replace` leaves a string without the pattern unchanged |
| Strings.JoinAvoids | telemetry/src/index.ts:118-120 | a character other than the separator that is in no part is not in the joined string |
| Strings.ReplaceFirstKeepsLaterOccurrences | telemetry/src/index.ts:47 | `replace` with a string pattern changes only the first occurrence; later occurrences survive, shifted |
| Strings.ReplaceChar | telemetry/src/index.ts:93-95 | `replace(/:/g, "_")` keeps the length, changes only ':' characters, and leaves none |
| Strings.DigitChar | client/src/args.rs:27-30 | a value below ten renders as a decimal digit |
| Strings.DigitValue | client/src/args.rs:27-30 | a digit's value is below ten and renders back to that digit |
| Strings.NatToDecimal | telemetry/src/index.ts:52 | a number in a template literal is a non-empty run of digits without leading zeros: zero prints as "0", and no other number starts with '0' |
| Strings.DecimalRoundTrip | telemetry/src/index.ts:52 | reading back a rendered number gives the number |
| Json.ReadProperty | js/bun/index.ts:36 | reading `type` or `payload` throws exactly on `null`, is defined exactly when an object has that key, and yields that member |
| Urls.QueryGet | js/bun/index.ts:9-10 | `searchParams.get` is None exactly when no pair has the name, and otherwise is the value of the first such pair |
| Urls.QueryGetAppend | client/src/transporters/ws.rs:55-57 | pairs appended to a query are visible only for names the existing pairs lack |
| Messages.EncodeClientMessage | client/src/messages.rs:3-7 | a SendMessage encodes as an object with exactly `type` = "sendMessage" and `payload` = the text |
| Messages.StringField | client/src/messages.rs:15-20 | a field decodes exactly when it is present and a string, and yields that string |
| Messages.DecodeMessage | client/src/messages.rs:15-20 | a Message decodes exactly from an object with string `username`, `message` and `timestamp`, and carries those values |
| Messages.DecodeServerMessage | client/src/messages.rs:9-13 | a ServerMessage decodes exactly when `type` is "message" and `payload` decodes as a Message |
| Messages.DecodeEncodeServerMessage | client/src/messages.rs:9-20 | decoding the object form of a ServerMessage gives back that ServerMessage |
| Transports.FromStr | client/src/transporters/mod.rs:20-29 | only "ws" parses, to Ws; any other string fails with "Unknown transport type" naming it |
| Transports.ConnectIsWs | client/src/transporters/mod.rs:31-42 | a parsed transport type connects through the WebSocket handshake |
| WsTransport.SendFrame | client/src/transporters/ws.rs:25-27 | `send_message` writes one text frame: an object with exactly `type` = "sendMessage" and `payload` = the message |
| WsTransport.DecodeText | client/src/transporters/ws.rs:38-42 | a text frame yields a Message exactly when it parses and decodes as a ServerMessage, and yields that message |
| WsTransport.Scan | client/src/transporters/ws.rs:31-46 | reading never goes backwards and never past the end of the stream |
| WsTransport.ScanSkipsNonText | client/src/transporters/ws.rs:33-36 | binary, ping, pong and close frames are skipped without changing the result |
| WsTransport.FirstTextDecides | client/src/transporters/ws.rs:33-42 | the first text frame decides the result, success or decode error, and nothing after it is consumed |
| WsTransport.StreamErrorFails | client/src/transporters/ws.rs:33 | a stream error before any text frame is the result |
| WsTransport.EndWithoutTextFails | client/src/transporters/ws.rs:45 | a stream that ends without a text frame fails with "No message received" |
| WsTransport.HandshakeUrl | client/src/transporters/ws.rs:49-57 | the URL gets scheme "ws" and keeps host and path; `room` then `username` follow any existing pairs; an unsettable scheme fails |
| WsTransport.WsTransport.constructor | client/src/transporters/ws.rs:59-65 | a new transport has sent nothing and has consumed nothing of its stream |
| WsTransport.WsTransport.SendMessage | client/src/transporters/ws.rs:24-29 | on success exactly one encoded SendMessage text frame is appended; a sink error leaves the frames unchanged and is returned |
| WsTransport.WsTransport.WaitForMessage | client/src/transporters/ws.rs:31-46 | the result and the new read position are those of `Scan` from the old position |
| ClientArgs.ParseDigits | client/src/args.rs:27-30 | accepted digit strings are all digits, and their value is below the integer type's limit |
| ClientArgs.ParseUnsigned | client/src/args.rs:27-30 | an empty string fails with Empty. A lone sign, or a leading '-', fails with InvalidDigit. An accepted value is below the limit |
| ClientArgs.ParseUnsignedSpec | client/src/args.rs:27-30 | an unsigned parse succeeds exactly on one optional '+' and a non-empty digit run whose value fits, and yields that value |
| ClientArgs.ParseDigitsAccepts | client/src/args.rs:27-30 | every digit run whose value fits is accepted with that value |
| ClientArgs.ParseUnsignedRoundTrip | client/src/args.rs:27-30 | every value that fits, printed in decimal, parses back to itself |
| ClientArgs.UrlParserInput | client/src/args.rs:34-39 | "http://" is prepended exactly when "://" does not occur, so the parser always sees "://" |
| ClientArgs.ParseUrl | client/src/args.rs:34-39 | `parse_url` succeeds exactly when the URL parser accepts the prefixed text, and yields its URL |
| ClientArgs.ParseArgs | client/src/args.rs:14-32 | with one to six or more than seven arguments, a usage error naming the program is returned. An empty argument list gives `ProgramNameMissing`, where the source panics (see Left out). Otherwise the result succeeds exactly when all six fields parse, with the parsed values. On a failure the error is the first failing field's own: the transport, then the URL, the two u32 counts (positions 3 and 4), then the two u64 delays (positions 5 and 6) |
| ClientArgs.ParsedArgsInRange | client/src/args.rs:8-11 | parsed counts fit in u32 and parsed delays fit in u64 |
| ClientState.AsMicros | client/src/state.rs:36 | `as_micros` is the floor of the duration in microseconds |
| ClientState.SumsAppend | client/src/state.rs:48-56 | loop sums and counts over consecutive dumps add up |
| ClientState.DumpJson | client/src/state.rs:15-23 | a dump prints as an object with exactly five keys, the four counters and the timestamp, each holding its value |
| ClientState.State.constructor | client/src/state.rs:26-33 | all four counters start at zero |
| ClientState.State.RegisterLoopIteration | client/src/state.rs:35-38 | the loop sum grows by the duration in microseconds and the count by one; the gauges are unchanged |
| ClientState.State.IncClientsConnected | client/src/state.rs:40-42 | only the connected-client counter grows, by one |
| ClientState.State.IncRoomsCreated | client/src/state.rs:44-46 | only the room counter grows, by one |
| ClientState.State.ResetLoopAndDump | client/src/state.rs:48-56 | the dump holds the gauges and the old accumulators, which are reset to zero. Each registered iteration lands in exactly one dump |
| ChatServer.Fetch | js/bun/index.ts:5-27 | off "/ws" the reply is 404 "Not found". An absent or empty username or room gives 400 "Missing username or room". Otherwise the socket is upgraded with the first such pairs, or a failed upgrade gives 400 |
| ChatServer.Open | js/bun/index.ts:29-31 | a socket subscribes to its own room |
| ChatServer.Outbound | js/bun/index.ts:39-46 | a publication is an object with exactly `type` = "message" and a `payload` object holding exactly the sender, the text and the timestamp |
| ChatServer.OnMessage | js/bun/index.ts:32-49 | binary is ignored. Malformed JSON or `null` throws. A "sendMessage" whose string payload is present is published to the sender's room as a timestamped message from the sender. Anything else is ignored |
| Docker.CmdOf | telemetry/src/docker.ts:37 | `Cmd` is absent exactly when there is no command. Otherwise it has at least one word, its words join back to the command, and none contains a space |
| Docker.CreateOptionsOf | telemetry/src/docker.ts:35-46 | the create request carries the spec's image, memory and network. Its `Cmd` is the command split on single spaces (`CmdOf`): absent exactly without a command, and otherwise joining back to it. The port range and auto-removal are the fixed constants |
| Docker.NetworkExists | telemetry/src/docker.ts:131-133 | a network exists exactly when its name is among the listed names |
| Docker.NetworkEffects | telemetry/src/docker.ts:142-146 | after listing, one create request is made exactly when the listing succeeded without the name |
| Docker.CleanupEffects | telemetry/src/docker.ts:118-122 | cleanup deletes exactly the registered ids when it has not begun, and nothing otherwise |
| Docker.StripLogHeader | telemetry/src/docker.ts:70 | the first eight bytes of each log chunk are dropped and the rest is kept |
| Docker.StartEffects | telemetry/src/docker.ts:49-51 | starting a container never issues a delete |
| Docker.DeleteEffects | telemetry/src/docker.ts:107-116 | one forced delete per id, in order, each with its own answer |
| Docker.DeletedIdsAppend | telemetry/src/docker.ts:107-116 | the deleted ids of consecutive request logs concatenate |
| Docker.DeleteEffectsAttemptAll | telemetry/src/docker.ts:107-116 | every id is deleted once, in order, whatever the daemon answers |
| Docker.NoDeletesIn | telemetry/src/docker.ts:49-51 | a log without delete requests deletes no id |
| Docker.ContainerHandle.constructor | telemetry/src/docker.ts:78-82 | a result starts with its id, its address and memory 0 |
| Docker.ContainerHandle.OnStats | telemetry/src/docker.ts:86-89 | the last stats event's usage is the memory |
| Docker.Session.constructor | telemetry/src/docker.ts:9-10 | no container is registered, cleanup has not begun, and nothing was requested |
| Docker.Session.StartContainer | telemetry/src/docker.ts:18-93 | create and start are requested; the id is registered once both succeed; a waiter is pending when requested. The result succeeds exactly when the address, log stream and stats stream are all obtained |
| Docker.Session.Lookup | telemetry/src/docker.ts:55-92 | after registration the address is read from the spec's network, then streams are attached and the waiter is launched |
| Docker.Session.RemoveContainers | telemetry/src/docker.ts:107-116 | every id gets a forced delete request, failures included |
| Docker.Session.RemoveAllContainers | telemetry/src/docker.ts:118-122 | the first call deletes the ids registered at that moment; later calls change nothing and return the same batch |
| Docker.Session.OnContainerExit | telemetry/src/docker.ts:95-105 | an exit with a pending waiter and no cleanup yet removes all containers, then exits with the container's status code; otherwise nothing happens |
| Docker.Session.OnSigint | telemetry/src/docker.ts:148-152 | with nothing registered the process exits at once. Otherwise it exits after the one cleanup |
| Docker.Session.CleanupAndExit | telemetry/src/docker.ts:103-104 | the registry's ids are deleted if cleanup had not begun, and then the process exits with the given code |
| Docker.Session.EnsureNetworkExists | telemetry/src/docker.ts:124-146 | a network is created exactly when the listing succeeds and no listed name equals the network name. The step succeeds exactly when the network was listed or created. A listing or creation error is returned |
| Telemetry.ReportFromJson | telemetry/src/index.ts:63-68 | a report is read from an object whose four counters are all non-negative integers, and it carries them. Anything else gives no report (see Left out) |
| Telemetry.Absorb | telemetry/src/index.ts:65-68 | the report's gauges replace the dump's, and its loop sum and count are added to the dump's |
| Telemetry.NumberOfRooms | telemetry/src/index.ts:49-51 | `Math.floor(total / perRoom)` is the largest n with n·perRoom ≤ total; dividing by zero gives NaN for 0/0 and Infinity otherwise |
| Telemetry.TargetText | telemetry/src/index.ts:52 | the rendered room target contains no space. A room count prints as its digits, without leading zeros, reading back to the count; the other targets print as "Infinity" and "NaN" |
| Telemetry.TargetReached | telemetry/src/index.ts:70 | `roomsCreated >= numberOfRooms` never holds for an Infinity or NaN target, and holds for a room count exactly when that many rooms were created |
| Telemetry.ClientUrlFillsPlaceholder | telemetry/src/index.ts:47 | the server's address takes the place of the template's first `{server}`, and the rest of the template is kept |
| Telemetry.ClientUrl | telemetry/src/index.ts:47 | a template without `{server}` is the URL as given; with a `{server}`, the server's address appears in the URL |
| Telemetry.ClientUrlWithoutPlaceholder | telemetry/src/index.ts:47 | a template without `{server}` is used as it is |
| Telemetry.CommandWordsSpaceFree | telemetry/src/index.ts:52 | with a space-free transport and URL, no command word holds a space |
| Telemetry.ClientCommand | telemetry/src/index.ts:52 | with a space-free transport and URL, the command splits on spaces into exactly the binary, transport, URL, room target, clients per room and loop delay |
| Telemetry.ServerSpec | telemetry/src/index.ts:24-29 | the server container uses the configured image, network and memory limit, with no command and no stdout. Its stats are tracked and its exit ends the process |
| Telemetry.ClientSpec | telemetry/src/index.ts:58-74 | a client container uses the client image, the network and the command, with no memory limit. Its stdout is read, its stats are not tracked, and its exit ends the process |
| Telemetry.ClientCmdIsCommandWords | telemetry/src/index.ts:52 | with a space-free transport and URL, the client's `Cmd` is exactly the binary, transport, URL, room target, clients per room and loop delay |
| Telemetry.ResultFileName | telemetry/src/index.ts:93-95 | the file is `./results/<image>-<time>.csv`, where the time part is the ISO time with each ':' replaced by '_' and every other character kept |
| Telemetry.MeanOf | telemetry/src/index.ts:116 | a row has a mean exactly when some loop sample was counted |
| Telemetry.Drained | telemetry/src/index.ts:111-112 | draining keeps one dump per client |
| Telemetry.RowOf | telemetry/src/index.ts:100-117 | the row written at a tick has the tick's time and the server's memory. Its room and client counts are the totals over the dumps. Its mean exists exactly when there are samples, and it is then the summed samples over their count |
| Telemetry.DrainedTotal | telemetry/src/index.ts:105-113 | after draining, the gauge totals are unchanged and the accumulator totals are zero |
| Telemetry.ColumnsAvoid | telemetry/src/index.ts:118-120 | a non-digit character that is in neither the time nor the mean text is in no column |
| Telemetry.CsvLine | telemetry/src/index.ts:118-120 | a line ends with a newline, and holds no other newline when the time and mean text hold none |
| Telemetry.CsvLineColumns | telemetry/src/index.ts:118-120 | without its newline, a line splits on commas into exactly the five columns, in order, when neither the time nor the mean text holds a comma |
| Telemetry.WrittenAppend | telemetry/src/index.ts:118-122 | writing a row adds its loop sum and count to the totals of the rows written |
| Telemetry.TotalAppendZero | telemetry/src/index.ts:76-82 | a new zeroed dump changes none of the four totals |
| Telemetry.TotalUpdate | telemetry/src/index.ts:65-68 | replacing one dump changes each of the four totals by the difference between the new dump and the old one |
| Telemetry.MainRejected | telemetry/src/index.ts:126-129 | a rejected `main` deletes the registered containers if cleanup had not begun, then the error escapes |
| Telemetry.Benchmark.constructor | telemetry/src/index.ts:34-36 | the run starts with no dumps, no pending batch and no rows. The result file name comes from the start time, and the client spec from the options and the server's address |
| Telemetry.Benchmark.StepMainLoop | telemetry/src/index.ts:38-40 | nothing at all changes while the loop has ended or the newest batch is pending. Otherwise the client container's requests are made, and its id is registered and watched as `startContainer` decides. A started batch becomes pending with a new zeroed dump. If the container cannot start, the loop ends, cleanup runs unless it already began, and the error escapes |
| Telemetry.Benchmark.StartOrReject | telemetry/src/index.ts:38-40 | one turn that starts a batch: its requests, registration and waiter, then either a pending batch or the end of the loop with cleanup and the escaping error |
| Telemetry.Benchmark.Abort | telemetry/src/index.ts:126-129 | the loop ends, the registered containers are deleted if cleanup had not begun, and the error escapes; the dumps and rows are kept |
| Telemetry.Benchmark.StartBatch | telemetry/src/index.ts:43-85 | the batch starts exactly when its container starts. The container's create and start requests are made, and its id is registered and watched as `startContainer` decides. A started batch adds one zeroed dump and is pending; otherwise the dumps are unchanged |
| Telemetry.Benchmark.OnStdout | telemetry/src/index.ts:62-73 | the batch's dump absorbs the report. The newest batch stops pending exactly when its report reaches the room target. Each reported sample is counted once |
| Telemetry.Benchmark.Tick | telemetry/src/index.ts:99-123 | the row holds the totals of the dumps before the tick and the server's memory, and is appended to the rows. Every dump's accumulators are zeroed. The samples left in the dumps plus those in the written rows stay equal to all samples reported, so none is lost or written twice |
| Telemetry.Benchmark.Drain | telemetry/src/index.ts:105-113 | the loop returns the four totals of the dumps and zeroes each dump's accumulators |
| Telemetry.Launch | telemetry/src/index.ts:20-36 | if the network cannot be listed or created, the process ends with nothing started and no cleanup. Otherwise the server's requests are made, and its id is registered and watched. The run starts exactly when the server starts. It is for these options, its result file is named from the start time, and every batch's client command carries the URL built from the server's address on the network. If the server fails, cleanup runs unless it already began, and the error escapes |
| Telemetry.StartServer | telemetry/src/index.ts:24-29 | the server starts exactly when `startContainer` succeeds, with its id and its address on the configured network; otherwise `main`'s rejection handler runs |
| Compat.ClientSendIsPublished | js/bun/index.ts:32-49 | the frame the client's `send_message` writes is published by the relay to the sender's room |
| Compat.OutboundDecodes | client/src/messages.rs:9-20 | the relay's publication is the object form of a ServerMessage, and the client decodes it to that message |
| Compat.RelayDelivers | client/src/transporters/ws.rs:31-46 | a publication behind any non-text frames is what `wait_for_message` returns |
| Compat.HandshakeQuery | js/bun/index.ts:9-10 | the relay reads room and username from the first pairs of the handshake URL, so pairs already in the base URL win |
| Compat.HandshakeReachesRoom | js/bun/index.ts:5-21 | a "/ws" base URL without its own room or username pairs is upgraded into the requested room as the requested user |
| Compat.SendReachesSubscribedRoom | js/bun/index.ts:29-47 | the socket a client's handshake opens subscribes to the named room, and each message the client sends is published to that same topic |
| Compat.StateDumpReadByTelemetry | client/src/state.rs:15-23 | a dump the client prints is read by the telemetry with all four counters intact |
| Compat.AbsorbAllSums | telemetry/src/index.ts:65-68 | absorbing a client's dumps in order accumulates exactly the loop samples dumped, and keeps the latest gauges |

## Left out

- Text parsing and printing of JSON (`JSON.parse`, `JSON.stringify`, serde) is not modelled. Values are JSON trees, and text that does not parse is `Malformed`.
- Docker stats JSON is not modelled: `memory_stats.usage` arrives as a natural number.
- JavaScript number printing is left out for floating-point means. `NaN` and `Infinity` in a CSV row are the `NoSamples` mean. Integers of 1e21 or more print in exponent form in JavaScript, and that is not modelled.
- Telemetry.CsvLineColumns: the mean's text is a parameter, because floating-point division and its printing are not modelled.
- Number and string arguments of the orchestrator are not parsed or range-checked. `program.ts` is not part of this model.
- Counters are unbounded. The client's `usize` counters and the `as usize` cast of microseconds do not wrap in the model.
- Time, delays (`serverDelay`, the 5000 ms interval) and the timestamps themselves are parameters. The timer schedule is not modelled.
- Concurrency is not modelled: events are applied one at a time. The relaxed atomic counters, and races between callbacks, are not modelled.
- Un-awaited promises are reduced to their effects. `ensureNetworkExists` is not awaited, so its failure becomes an unhandled rejection. `waitAndExit` is also not awaited.
- Telemetry.Launch: the network step finishes before the server start begins. In `index.ts` the two overlap, so the server container may already be created, or started, when a network failure ends the process. That interleaving is not modelled.
- Telemetry.ReportFromJson: `index.ts` checks nothing about a report. It casts the parsed value, so a missing member is copied as `undefined` into a gauge, and it turns an accumulator into `NaN`. Text that is not JSON throws inside the stdout handler. The model reads only reports whose four members are non-negative integers. It gives `None` for anything else, and that is a filter of the model's own. The client prints only dumps of that shape (`Compat.StateDumpReadByTelemetry`).
- The first stdout report of a client is assumed to arrive after its dump was pushed (`index.ts` declares `dump` after the awaited start).
- The create request is the `CreateOptions` record. The Docker client library's HTTP encoding of it is not modelled.
- The `url` crate's parsing and its scheme rules are parameters (`parser`, `schemeSettable`). Percent-encoding of query pairs is not modelled.
- `connect_async`, the TLS stream and the WebSocket handshake response are not modelled: a connected transport starts from a given incoming stream.
- Bun's delivery of publications to subscribers is not modelled, and neither is the port taken from `PORT`.
- ClientArgs.ParseArgs: with an empty argument list, `args.rs` panics when it indexes `args[0]` for the usage text. The model returns the error `ProgramNameMissing` instead of modelling the panic.
- serde's alternative sequence form of structs and enums is not accepted by the decoders. Neither are duplicate keys, since objects are maps.
- `$` patterns in the replacement string of `String.prototype.replace` are not expanded. The server's IP address contains none.
- `client/src/main.rs`, `client/src/client.rs` and the telemetry's `misc.ts` and `program.ts` are not part of this model.

=== FILE: chat_server.dfy ===
/**
 * The toy chat relay used as a server under test (js/bun/index.ts). Each
 * handler is a decision returned as a value: the HTTP response or upgrade of
 * `fetch`, the subscription of `open`, the publication of `message`. Bun's
 * delivery of publications to subscribers is not modelled.
 */
module ChatServer {
  import opened Wrappers
  import opened Json
  import opened Urls

  /** An incoming HTTP request: its path and its query pairs. */
  datatype Request = Request(path: string, query: seq<(string, string)>)

  /** The per-connection data attached at upgrade. */
  datatype SocketData = SocketData(username: string, room: string)

  /** What `fetch` does: answer with a response, or upgrade the connection (and return nothing). */
  datatype FetchResult = Respond(status: nat, body: string) | Upgraded(data: SocketData)

  /** A message arriving on a socket: text (JSON or not) or binary. */
  datatype Incoming = TextMessage(text: Document) | BinaryMessage

  /** What `message` does with it. */
  datatype MessageAction =
    | Ignore
    | Publish(topic: string, payload: Json)
    | Throw(reason: string)   // an exception escapes the handler

  /** `!value` for a search parameter: absent or empty. */
  predicate Missing(value: Option<string>)
  {
    value.None? || value.value == ""
  }

  /**
   * `fetch`: 404 off "/ws"; 400 if username or room is missing or empty;
   * otherwise an upgrade is attempted, whose outcome is the runtime's
   * (`upgradeSucceeds`).
   */
  function Fetch(req: Request, upgradeSucceeds: bool): (r: FetchResult)
    ensures req.path != "/ws" ==> r == Respond(404, "Not found")
    ensures req.path == "/ws" && (Missing(QueryGet(req.query, "username")) || Missing(QueryGet(req.query, "room"))) ==>
      r == Respond(400, "Missing username or room")
    ensures r.Upgraded? <==>
      req.path == "/ws" && !Missing(QueryGet(req.query, "username")) && !Missing(QueryGet(req.query, "room")) && upgradeSucceeds
    ensures (req.path == "/ws" && !Missing(QueryGet(req.query, "username")) && !Missing(QueryGet(req.query, "room")) &&
             !upgradeSucceeds) ==> r == Respond(400, "WebSocket upgrade error")
    ensures r.Upgraded? ==>
      QueryGet(req.query, "username") == Some(r.data.username) && QueryGet(req.query, "room") == Some(r.data.room)
  {
    if req.path == "/ws" then
      var username := QueryGet(req.query, "username");
      var room := QueryGet(req.query, "room");
      if Missing(username) || Missing(room) then Respond(400, "Missing username or room")
      else if upgradeSucceeds then Upgraded(SocketData(username.value, room.value))
      else Respond(400, "WebSocket upgrade error")
    else Respond(404, "Not found")
  }

  /** `open`: the one topic a new connection subscribes to. */
  function Open(data: SocketData): (topic: string)
    ensures topic == data.room
  {
    data.room
  }

  /** The object the server publishes for a chat text. */
  function Outbound(username: string, text: string, timestamp: string): (j: Json)
    ensures j.JObject? && j.fields.Keys == {"type", "payload"} && j.fields["type"] == JString("message")
    ensures var p := j.fields["payload"];
      p.JObject? && p.fields.Keys == {"username", "message", "timestamp"} &&
      p.fields["username"] == JString(username) && p.fields["message"] == JString(text) &&
      p.fields["timestamp"] == JString(timestamp)
  {
    JObject(map[
      "type" := JString("message"),
      "payload" := JObject(map[
        "username" := JString(username),
        "message" := JString(text),
        "timestamp" := JString(timestamp)])])
  }

  /**
   * `message`: binary messages are ignored; text that is not JSON, or the JSON
   * `null`, throws; a value whose `type` is "sendMessage" and whose `payload`
   * is a string is published to the sender's room; anything else is ignored.
   * `timestamp` is the server clock's ISO reading.
   */
  function OnMessage(data: SocketData, msg: Incoming, timestamp: string): (a: MessageAction)
    ensures msg.BinaryMessage? ==> a == Ignore
    ensures a.Publish? ==> a.topic == data.room
    ensures a.Publish? <==>
      msg.TextMessage? && msg.text.Parsed? &&
      ReadProperty(msg.text.value, "type") == Defined(JString("sendMessage")) &&
      ReadProperty(msg.text.value, "payload").Defined? && ReadProperty(msg.text.value, "payload").value.JString?
    ensures a.Publish? ==> a.payload == Outbound(data.username, msg.text.value.fields["payload"].s, timestamp)
    ensures a.Throw? <==> msg.TextMessage? && (msg.text.Malformed? || msg.text.value.JNull?)
  {
    match msg
    case BinaryMessage => Ignore
    case TextMessage(Malformed(_)) => Throw("SyntaxError: JSON.parse")
    case TextMessage(Parsed(parsed)) =>
      match ReadProperty(parsed, "type")
      case ThrowsTypeError => Throw("TypeError: property of null")
      case Defined(JString("sendMessage")) =>
        (match ReadProperty(parsed, "payload")
         case Defined(JString(text)) => Publish(data.room, Outbound(data.username, text, timestamp))
         case _ => Ignore)
      case _ => Ignore
  }
}

=== FILE: client_args.dfy ===
/**
 * Command-line parsing of the benchmark client (client/src/args.rs): the
 * arity check, the six positional fields, Rust's parse of unsigned integers
 * and the scheme-prefix rule of `parse_url`. The URL parser of the `url`
 * crate is a parameter.
 */
module ClientArgs {
  import opened Wrappers
  import opened Strings
  import opened Urls
  import Transports

  const U32Limit: nat := 0x1_0000_0000
  const U64Limit: nat := 0x1_0000_0000_0000_0000

  datatype Args = Args(
    transport: Transports.TransportType,
    url: Url,
    numberOfRooms: nat,
    numberOfClientsPerRoom: nat,
    delayPerClient: nat,
    loopDelay: nat)

  /** The kinds of `ParseIntError` an unsigned parse reports. */
  datatype IntErrorKind = Empty | InvalidDigit | PosOverflow

  datatype ArgsError =
    | Usage(program: string)          // wrong number of arguments
    | ProgramNameMissing              // an empty argv: indexing args[0] for the usage text panics
    | BadTransport(error: Transports.TransportError)
    | BadUrl(reason: string)
    | BadNumber(position: nat, kind: IntErrorKind)

  /**
   * Rust's digit loop, read left to right: the first character that is not a
   * digit, or the first digit that takes the value to `limit` or beyond, is the error.
   */
  function ParseDigits(s: string, limit: nat): (r: Result<nat, IntErrorKind>)
    requires limit > 0
    ensures r.Success? ==> AllDigits(s) && r.value == DecimalValue(s) && r.value < limit
    ensures s != [] && !IsDigit(s[0]) ==> r == Failure(InvalidDigit)
  {
    if s == [] then Success(0)
    else
      match ParseDigits(s[..|s| - 1], limit)
      case Failure(k) => Failure(k)
      case Success(acc) =>
        var c := s[|s| - 1];
        if !IsDigit(c) then Failure(InvalidDigit)
        else if acc * 10 + DigitValue(c) >= limit then Failure(PosOverflow)
        else Success(acc * 10 + DigitValue(c))
  }

  /** `str::parse` for an unsigned type whose values are below `limit`: one optional '+', then digits. */
  function ParseUnsigned(s: string, limit: nat): (r: Result<nat, IntErrorKind>)
    requires limit > 0
    ensures s == [] ==> r == Failure(Empty)
    ensures s == "+" || s == "-" ==> r == Failure(InvalidDigit)
    ensures |s| > 1 && s[0] == '-' ==> r == Failure(InvalidDigit)
    ensures r.Success? ==> r.value < limit
  {
    if s == [] then Failure(Empty)
    else if |s| == 1 && (s[0] == '+' || s[0] == '-') then Failure(InvalidDigit)
    else ParseDigits(if s[0] == '+' then s[1..] else s, limit)
  }

  /** What an unsigned parse accepts: exactly an optional '+' and a non-empty run of digits whose value is below the limit. */
  lemma ParseUnsignedSpec(s: string, limit: nat)
    requires limit > 0
    ensures ParseUnsigned(s, limit).Success? <==>
      var digits := if |s| > 0 && s[0] == '+' then s[1..] else s;
      |digits| > 0 && AllDigits(digits) && DecimalValue(digits) < limit
    ensures ParseUnsigned(s, limit).Success? ==>
      ParseUnsigned(s, limit).value == DecimalValue(if s[0] == '+' then s[1..] else s)
  {
    if |s| > 1 || (|s| == 1 && s[0] != '+' && s[0] != '-') {
      var digits := if s[0] == '+' then s[1..] else s;
      if AllDigits(digits) && DecimalValue(digits) < limit {
        ParseDigitsAccepts(digits, limit);
      }
    }
  }

  lemma {:induction false} ParseDigitsAccepts(s: string, limit: nat)
    requires limit > 0 && AllDigits(s) && DecimalValue(s) < limit
    ensures ParseDigits(s, limit) == Success(DecimalValue(s))
  {
    if s != [] {
      var front := s[..|s| - 1];
      assert AllDigits(front);
      assert DecimalValue(front) <= DecimalValue(s);
      ParseDigitsAccepts(front, limit);
    }
  }

  /** Every number below the limit, printed in decimal, parses back to itself. */
  lemma ParseUnsignedRoundTrip(n: nat, limit: nat)
    requires n < limit
    ensures ParseUnsigned(NatToDecimal(n), limit) == Success(n)
  {
    var s := NatToDecimal(n);
    DecimalRoundTrip(n);
    ParseDigitsAccepts(s, limit);
  }

  /** The string `parse_url` hands to the URL parser: "http://" is prepended exactly when "://" does not occur. */
  function UrlParserInput(url: string): (r: string)
    ensures Contains(url, "://") ==> r == url
    ensures !Contains(url, "://") ==> r == "http://" + url
    ensures Contains(r, "://")
  {
    if Contains(url, "://") then url
    else
      var r := "http://" + url;
      assert OccursAt(r, "://", 4);
      ContainsIffOccurs(r, "://");
      r
  }

  /** `parse_url` with the URL parser `parser`. */
  function ParseUrl(url: string, parser: string -> Result<Url, string>): (r: Result<Url, ArgsError>)
    ensures r.Success? <==> parser(UrlParserInput(url)).Success?
    ensures r.Success? ==> r.value == parser(UrlParserInput(url)).value
  {
    match parser(UrlParserInput(url))
    case Success(u) => Success(u)
    case Failure(e) => Failure(BadUrl(e))
  }

  function TransportField(s: string): Result<Transports.TransportType, ArgsError>
  {
    match Transports.FromStr(s)
    case Success(t) => Success(t)
    case Failure(e) => Failure(BadTransport(e))
  }

  function NumberField(s: string, position: nat, limit: nat): Result<nat, ArgsError>
    requires limit > 0
  {
    match ParseUnsigned(s, limit)
    case Success(n) => Success(n)
    case Failure(k) => Failure(BadNumber(position, k))
  }

  /** All six positional fields parse. */
  predicate FieldsParse(argv: seq<string>, parser: string -> Result<Url, string>)
    requires |argv| == 7
  {
    && Transports.FromStr(argv[1]).Success?
    && parser(UrlParserInput(argv[2])).Success?
    && ParseUnsigned(argv[3], U32Limit).Success?
    && ParseUnsigned(argv[4], U32Limit).Success?
    && ParseUnsigned(argv[5], U64Limit).Success?
    && ParseUnsigned(argv[6], U64Limit).Success?
  }

  /** `parse_args` on the process arguments `argv` (argv[0] is the program name). */
  function ParseArgs(argv: seq<string>, parser: string -> Result<Url, string>): (r: Result<Args, ArgsError>)
    ensures |argv| != 7 ==> r.Failure? && (if |argv| == 0 then r.error == ProgramNameMissing else r.error == Usage(argv[0]))
    ensures |argv| == 7 ==> (r.Success? <==> FieldsParse(argv, parser))
    ensures |argv| == 7 && Transports.FromStr(argv[1]).Failure? ==>
      r == Failure(BadTransport(Transports.UnknownTransport(argv[1])))
    ensures (|argv| == 7 && Transports.FromStr(argv[1]).Success? &&
             parser(UrlParserInput(argv[2])).Failure?) ==>
      r == Failure(BadUrl(parser(UrlParserInput(argv[2])).error))
    ensures (|argv| == 7 && Transports.FromStr(argv[1]).Success? && parser(UrlParserInput(argv[2])).Success? &&
             ParseUnsigned(argv[3], U32Limit).Failure?) ==>
      r == Failure(BadNumber(3, ParseUnsigned(argv[3], U32Limit).error))
    ensures (|argv| == 7 && Transports.FromStr(argv[1]).Success? && parser(UrlParserInput(argv[2])).Success? &&
             ParseUnsigned(argv[3], U32Limit).Success? && ParseUnsigned(argv[4], U32Limit).Failure?) ==>
      r == Failure(BadNumber(4, ParseUnsigned(argv[4], U32Limit).error))
    ensures (|argv| == 7 && Transports.FromStr(argv[1]).Success? && parser(UrlParserInput(argv[2])).Success? &&
             ParseUnsigned(argv[3], U32Limit).Success? && ParseUnsigned(argv[4], U32Limit).Success? &&
             ParseUnsigned(argv[5], U64Limit).Failure?) ==>
      r == Failure(BadNumber(5, ParseUnsigned(argv[5], U64Limit).error))
    ensures (|argv| == 7 && Transports.FromStr(argv[1]).Success? && parser(UrlParserInput(argv[2])).Success? &&
             ParseUnsigned(argv[3], U32Limit).Success? && ParseUnsigned(argv[4], U32Limit).Success? &&
             ParseUnsigned(argv[5], U64Limit).Success? && ParseUnsigned(argv[6], U64Limit).Failure?) ==>
      r == Failure(BadNumber(6, ParseUnsigned(argv[6], U64Limit).error))
    ensures r.Success? ==>
      && Transports.FromStr(argv[1]) == Success(r.value.transport)
      && parser(UrlParserInput(argv[2])) == Success(r.value.url)
      && ParseUnsigned(argv[3], U32Limit) == Success(r.value.numberOfRooms)
      && ParseUnsigned(argv[4], U32Limit) == Success(r.value.numberOfClientsPerRoom)
      && ParseUnsigned(argv[5], U64Limit) == Success(r.value.delayPerClient)
      && ParseUnsigned(argv[6], U64Limit) == Success(r.value.loopDelay)
  {
    if |argv| != 7 then
      if |argv| == 0 then Failure(ProgramNameMissing) else Failure(Usage(argv[0]))
    else
      var transport :- TransportField(argv[1]);
      var url :- ParseUrl(argv[2], parser);
      var rooms :- NumberField(argv[3], 3, U32Limit);
      var clientsPerRoom :- NumberField(argv[4], 4, U32Limit);
      var delayPerClient :- NumberField(argv[5], 5, U64Limit);
      var loopDelay :- NumberField(argv[6], 6, U64Limit);
      Success(Args(transport, url, rooms, clientsPerRoom, delayPerClient, loopDelay))
  }

  /** Parsed room and client counts fit in u32 and both delays in u64. */
  lemma ParsedArgsInRange(argv: seq<string>, parser: string -> Result<Url, string>)
    requires ParseArgs(argv, parser).Success?
    ensures var a := ParseArgs(argv, parser).value;
      a.numberOfRooms < U32Limit && a.numberOfClientsPerRoom < U32Limit &&
      a.delayPerClient < U64Limit && a.loopDelay < U64Limit
  {
    var a := ParseArgs(argv, parser).value;
    ParseUnsignedSpec(argv[3], U32Limit);
    ParseUnsignedSpec(argv[4], U32Limit);
    ParseUnsignedSpec(argv[5], U64Limit);
    ParseUnsignedSpec(argv[6], U64Limit);
  }
}

=== FILE: client_state.dfy ===
/**
 * The shared progress counters of the benchmark client (client/src/state.rs)
 * and the dump it prints. Counters are unbounded naturals; the relaxed
 * atomics of the source become a sequential object.
 */
module ClientState {
  import opened Json

  /** `std::time::Duration`: whole seconds and the nanoseconds below one second. */
  datatype Duration = Duration(secs: nat, nanos: nat)

  /** `Duration::as_micros`: the whole microseconds in the duration, rounded down. */
  function AsMicros(d: Duration): (m: nat)
    ensures m * 1000 <= d.secs * 1_000_000_000 + d.nanos < (m + 1) * 1000
  {
    d.secs * 1_000_000 + d.nanos / 1000
  }

  /** What `reset_loop_and_dump` returns; the timestamp is the caller's clock reading. */
  datatype StateDump = StateDump(
    roomsCreated: nat,
    clientsConnected: nat,
    loopAvgSum: nat,
    loopAvgCount: nat,
    timestamp: string)

  /** The serde serialisation of a dump: field names in camelCase. */
  function DumpJson(d: StateDump): (j: Json)
    ensures j.JObject? && j.fields.Keys == {"roomsCreated", "clientsConnected", "loopAvgSum", "loopAvgCount", "timestamp"}
    ensures j.fields["roomsCreated"] == JNumber(d.roomsCreated) && j.fields["clientsConnected"] == JNumber(d.clientsConnected)
    ensures j.fields["loopAvgSum"] == JNumber(d.loopAvgSum) && j.fields["loopAvgCount"] == JNumber(d.loopAvgCount)
    ensures j.fields["timestamp"] == JString(d.timestamp)
  {
    JObject(map[
      "roomsCreated" := JNumber(d.roomsCreated),
      "clientsConnected" := JNumber(d.clientsConnected),
      "loopAvgSum" := JNumber(d.loopAvgSum),
      "loopAvgCount" := JNumber(d.loopAvgCount),
      "timestamp" := JString(d.timestamp)])
  }

  function SumCounts(dumps: seq<StateDump>): nat
  {
    if dumps == [] then 0 else SumCounts(dumps[..|dumps| - 1]) + dumps[|dumps| - 1].loopAvgCount
  }

  function SumMicros(dumps: seq<StateDump>): nat
  {
    if dumps == [] then 0 else SumMicros(dumps[..|dumps| - 1]) + dumps[|dumps| - 1].loopAvgSum
  }

  /** Totals over a history are additive. */
  lemma {:induction false} SumsAppend(front: seq<StateDump>, back: seq<StateDump>)
    ensures SumCounts(front + back) == SumCounts(front) + SumCounts(back)
    ensures SumMicros(front + back) == SumMicros(front) + SumMicros(back)
    decreases |back|
  {
    if back != [] {
      var last := |back| - 1;
      assert (front + back)[..|front + back| - 1] == front + back[..last];
      SumsAppend(front, back[..last]);
    } else {
      assert front + back == front;
    }
  }

  class State {
    var roomsCreated: nat
    var clientsConnected: nat
    var loopAvgSum: nat
    var loopAvgCount: nat

    /** Calls of RegisterLoopIteration so far, and the microseconds they registered. */
    ghost var iterations: nat
    ghost var registeredMicros: nat
    /** Every dump returned so far, oldest first. */
    ghost var dumps: seq<StateDump>

    /** Conservation: each registered iteration is either still counted live or in exactly one dump. */
    ghost predicate Valid()
      reads this
    {
      && SumCounts(dumps) + loopAvgCount == iterations
      && SumMicros(dumps) + loopAvgSum == registeredMicros
    }

    constructor ()
      ensures Valid()
      ensures roomsCreated == 0 && clientsConnected == 0 && loopAvgSum == 0 && loopAvgCount == 0
      ensures iterations == 0 && registeredMicros == 0 && dumps == []
    {
      roomsCreated, clientsConnected, loopAvgSum, loopAvgCount := 0, 0, 0, 0;
      iterations, registeredMicros, dumps := 0, 0, [];
    }

    method RegisterLoopIteration(duration: Duration)
      requires Valid()
      modifies this
      ensures Valid()
      ensures loopAvgSum == old(loopAvgSum) + AsMicros(duration) && loopAvgCount == old(loopAvgCount) + 1
      ensures roomsCreated == old(roomsCreated) && clientsConnected == old(clientsConnected)
      ensures iterations == old(iterations) + 1 && registeredMicros == old(registeredMicros) + AsMicros(duration)
      ensures dumps == old(dumps)
    {
      loopAvgSum := loopAvgSum + AsMicros(duration);
      loopAvgCount := loopAvgCount + 1;
      iterations := iterations + 1;
      registeredMicros := registeredMicros + AsMicros(duration);
    }

    method IncClientsConnected()
      requires Valid()
      modifies this`clientsConnected
      ensures Valid()
      ensures clientsConnected == old(clientsConnected) + 1
    {
      clientsConnected := clientsConnected + 1;
    }

    method IncRoomsCreated()
      requires Valid()
      modifies this`roomsCreated
      ensures Valid()
      ensures roomsCreated == old(roomsCreated) + 1
    {
      roomsCreated := roomsCreated + 1;
    }

    /**
     * Reports the two gauges unchanged and hands over the loop accumulators,
     * leaving them at 0: the dump holds exactly what was registered since the
     * previous dump.
     */
    method ResetLoopAndDump(timestamp: string) returns (dump: StateDump)
      requires Valid()
      modifies this`loopAvgSum, this`loopAvgCount, this`dumps
      ensures Valid()
      ensures dump == StateDump(roomsCreated, clientsConnected, old(loopAvgSum), old(loopAvgCount), timestamp)
      ensures loopAvgSum == 0 && loopAvgCount == 0
      ensures dump.loopAvgCount == iterations - SumCounts(old(dumps))
      ensures dump.loopAvgSum == registeredMicros - SumMicros(old(dumps))
      ensures dumps == old(dumps) + [dump]
    {
      dump := StateDump(roomsCreated, clientsConnected, loopAvgSum, loopAvgCount, timestamp);
      loopAvgSum := 0;
      loopAvgCount := 0;
      SumsAppend(dumps, [dump]);
      dumps := dumps + [dump];
    }
  }
}

=== FILE: compat.dfy ===
/**
 * How the components fit together: what the Rust client sends is what the
 * Bun relay publishes, what the relay publishes is what the client decodes,
 * the client's handshake URL reaches the room it names, and the dumps the
 * client prints are what the telemetry reads and accumulates.
 */
module Compat {
  import opened Wrappers
  import opened Json
  import opened Urls
  import opened Messages
  import opened ChatServer
  import opened Ws = WsTransport
  import opened ClientState
  import opened Telemetry

  /** A client's `send_message` frame, received by the relay, is published to the sender's room. */
  lemma ClientSendIsPublished(data: SocketData, text: string, timestamp: string)
    ensures OnMessage(data, TextMessage(SendFrame(text).body), timestamp) ==
      Publish(data.room, Outbound(data.username, text, timestamp))
  {
    var j := EncodeClientMessage(SendMessage(text));
    assert ReadProperty(j, "type") == Defined(JString("sendMessage"));
    assert ReadProperty(j, "payload") == Defined(JString(text));
  }

  /** What the relay publishes is the object form of a ServerMessage, and the client decodes it to that message. */
  lemma OutboundDecodes(username: string, text: string, timestamp: string)
    ensures Outbound(username, text, timestamp) == EncodeServerMessage(ServerMessageOf(Message(username, text, timestamp)))
    ensures DecodeServerMessage(Outbound(username, text, timestamp)) ==
      Success(ServerMessageOf(Message(username, text, timestamp)))
  {
    DecodeEncodeServerMessage(ServerMessageOf(Message(username, text, timestamp)));
  }

  /**
   * A publication reaching a waiting client behind any number of non-text
   * frames is the message `wait_for_message` returns, and it consumes up to
   * that frame.
   */
  lemma RelayDelivers(rx: seq<Ws.Incoming>, i: nat, j: nat, username: string, text: string, timestamp: string)
    requires i <= j < |rx| && NonTextBetween(rx, i, j)
    requires rx[j] == Received(Text(Parsed(Outbound(username, text, timestamp))))
    ensures Scan(rx, i) == (Success(Message(username, text, timestamp)), j + 1)
  {
    FirstTextDecides(rx, i, j);
    OutboundDecodes(username, text, timestamp);
  }

  /**
   * The relay reads `room` and `username` from the client's handshake URL:
   * the first pair of each name wins, so pairs already in the configured URL
   * take precedence over the ones `connect` appends.
   */
  lemma HandshakeQuery(base: Url, username: string, room: string)
    ensures var q := HandshakeUrl(base, username, room, true).value.query;
      && QueryGet(q, "room") == (if QueryGet(base.query, "room").Some? then QueryGet(base.query, "room") else Some(room))
      && QueryGet(q, "username") ==
           (if QueryGet(base.query, "username").Some? then QueryGet(base.query, "username") else Some(username))
  {
    var extra := [("room", room), ("username", username)];
    QueryGetAppend(base.query, extra, "room");
    QueryGetAppend(base.query, extra, "username");
    assert QueryGet(extra, "room") == Some(room);
    assert extra[1..] == [("username", username)];
    assert QueryGet(extra, "username") == Some(username);
  }

  /**
   * With a URL path of "/ws", no room or username pair of its own, and a
   * non-empty username and room, the handshake is upgraded into that room as
   * that user.
   */
  lemma HandshakeReachesRoom(base: Url, username: string, room: string)
    requires base.path == "/ws" && username != "" && room != ""
    requires QueryGet(base.query, "room").None? && QueryGet(base.query, "username").None?
    ensures var url := HandshakeUrl(base, username, room, true).value;
      Fetch(Request(url.path, url.query), true) == Upgraded(SocketData(username, room))
  {
    HandshakeQuery(base, username, room);
  }

  /**
   * The socket that handshake opens subscribes to the room the client named,
   * and every message the client then sends is published to that same topic,
   * as what the relay announces for that user.
   */
  lemma SendReachesSubscribedRoom(base: Url, username: string, room: string, text: string, timestamp: string)
    requires base.path == "/ws" && username != "" && room != ""
    requires QueryGet(base.query, "room").None? && QueryGet(base.query, "username").None?
    ensures var url := HandshakeUrl(base, username, room, true).value;
      var r := Fetch(Request(url.path, url.query), true);
      && r.Upgraded?
      && Open(r.data) == room
      && OnMessage(r.data, TextMessage(SendFrame(text).body), timestamp) ==
           Publish(Open(r.data), Outbound(username, text, timestamp))
  {
    HandshakeReachesRoom(base, username, room);
    ClientSendIsPublished(SocketData(username, room), text, timestamp);
  }

  /** The report the telemetry reads from one client dump. */
  function ReportOf(d: StateDump): ClientDump
  {
    ClientDump(d.roomsCreated, d.clientsConnected, d.loopAvgSum, d.loopAvgCount)
  }

  /** A dump printed by the client is read back by the telemetry with all four numbers intact. */
  lemma StateDumpReadByTelemetry(d: StateDump)
    ensures ReportFromJson(DumpJson(d)) == Some(ReportOf(d))
  {
  }

  /** The telemetry's dump for one client after absorbing the client's dumps in order. */
  function AbsorbAll(start: ClientDump, dumps: seq<StateDump>): ClientDump
  {
    if dumps == [] then start else Absorb(AbsorbAll(start, dumps[..|dumps| - 1]), ReportOf(dumps[|dumps| - 1]))
  }

  /**
   * Absorbing a client's dumps from a zeroed dump accumulates exactly the
   * loop samples the client dumped, and keeps the latest gauges.
   */
  lemma {:induction false} AbsorbAllSums(dumps: seq<StateDump>)
    ensures AbsorbAll(ZeroDump, dumps).loopAvgSum == SumMicros(dumps)
    ensures AbsorbAll(ZeroDump, dumps).loopAvgCount == SumCounts(dumps)
    ensures dumps != [] ==> AbsorbAll(ZeroDump, dumps).roomsCreated == dumps[|dumps| - 1].roomsCreated
    ensures dumps != [] ==> AbsorbAll(ZeroDump, dumps).clientsConnected == dumps[|dumps| - 1].clientsConnected
  {
    if dumps != [] {
      AbsorbAllSums(dumps[..|dumps| - 1]);
    }
  }
}

=== FILE: docker.dfy ===
/**
 * The container lifecycle client and shutdown coordinator of the telemetry
 * orchestrator (telemetry/src/docker.ts). The Docker daemon is an oracle: its
 * answers to each call are parameters, and what the orchestrator asks of it
 * is recorded in a ghost log of effects. Asynchronous continuations (a
 * container's exit, SIGINT) are methods called when the event occurs.
 */
module Docker {
  import opened Wrappers
  import opened Strings

  type ContainerId = string

  /** The ephemeral port range set on every container. */
  const PortRange := "1024 65535"

  /** The options of `startContainer` (`exitProcessOnExit` defaults to true, `trackStats` to false). */
  datatype ContainerSpec = ContainerSpec(
    image: string,
    network: string,
    cmd: Option<string>,
    memory: Option<nat>,
    hasStdout: bool,
    exitProcessOnExit: bool,
    trackStats: bool)

  /** The create request sent to the daemon. */
  datatype CreateOptions = CreateOptions(
    image: string,
    cmd: Option<seq<string>>,
    memory: Option<nat>,
    networkMode: string,
    portRange: string,
    autoRemove: bool)

  /** The daemon's answers to the calls one `startContainer` makes, in call order. */
  datatype DaemonAnswers = DaemonAnswers(
    create: Result<ContainerId, string>,
    start: Outcome<string>,
    status: Result<map<string, string>, string>,   // network name -> IP address
    logs: Outcome<string>,
    stats: Outcome<string>)

  datatype StartError =
    | CreateFailed(reason: string)
    | StartFailed(id: ContainerId, reason: string)
    | StatusFailed(id: ContainerId, reason: string)
    | NetworkAttachmentMissing(id: ContainerId)     // the TypeError of reading a missing network's IPAddress
    | LogsFailed(id: ContainerId, reason: string)
    | StatsFailed(id: ContainerId, reason: string)

  /** What the orchestrator asks of the daemon and the process. */
  datatype Effect =
    | CreateRequested(options: CreateOptions)
    | StartRequested(id: ContainerId)
    | DeleteRequested(id: ContainerId, succeeded: bool)
    | NetworkCreateRequested(name: string)
    | ProcessExit(code: int)
    | UncaughtError                                // an error re-thrown to the runtime

  /** `Cmd`: the command split on single spaces; absent without a command. */
  function CmdOf(cmd: Option<string>): (r: Option<seq<string>>)
    ensures r.None? <==> cmd.None?
    ensures r.Some? ==> Join(r.value, ' ') == cmd.value
    ensures r.Some? ==> forall i :: 0 <= i < |r.value| ==> ' ' !in r.value[i]
    ensures r.Some? ==> |r.value| >= 1
  {
    match cmd
    case None => None
    case Some(c) => JoinSplit(c, ' '); Some(Split(c, ' '))
  }

  /** The create request of `startContainer`: the spec's image, command words, memory and network, and the constant port range and auto-removal. */
  function CreateOptionsOf(spec: ContainerSpec): (r: CreateOptions)
    ensures r.image == spec.image && r.networkMode == spec.network && r.memory == spec.memory
    ensures r.cmd.None? <==> spec.cmd.None?
    ensures r.cmd.Some? ==> Join(r.cmd.value, ' ') == spec.cmd.value
    ensures r.portRange == PortRange && r.autoRemove
    ensures r.cmd == CmdOf(spec.cmd)
  {
    CreateOptions(spec.image, CmdOf(spec.cmd), spec.memory, spec.network, PortRange, true)
  }

  /** A log chunk with the 8-byte multiplexing header dropped (`subarray(8)`). */
  function StripLogHeader(chunk: seq<bv8>): (text: seq<bv8>)
    ensures |chunk| <= 8 ==> text == []
    ensures |chunk| > 8 ==> |text| == |chunk| - 8 && chunk == chunk[..8] + text
  {
    if |chunk| <= 8 then [] else chunk[8..]
  }

  /** `networkExists`: `some` over the listed networks' Names, compared exactly, from the first. */
  predicate NetworkExists(listed: seq<string>, name: string)
    ensures NetworkExists(listed, name) <==> name in listed
  {
    listed != [] && (listed[0] == name || NetworkExists(listed[1..], name))
  }

  /** What `ensureNetworkExists` asks of the daemon after listing: a create request when the listing lacks the name. */
  function NetworkEffects(name: string, listed: Result<seq<string>, string>): (log: seq<Effect>)
    ensures log == [] || log == [NetworkCreateRequested(name)]
    ensures log != [] <==> listed.Success? && name !in listed.value
  {
    if listed.Success? && !NetworkExists(listed.value, name) then [NetworkCreateRequested(name)] else []
  }

  /** `ensureNetworkExists` resolves: the listing succeeded and either names the network or its creation succeeded. */
  predicate NetworkReady(name: string, listed: Result<seq<string>, string>, created: Outcome<string>)
  {
    listed.Success? && (NetworkExists(listed.value, name) || created.Pass?)
  }

  /** The deletes `removeAllContainers` issues: the registry's ids if no cleanup has begun, nothing otherwise. */
  function CleanupEffects(cleanup: Option<seq<ContainerId>>, registered: seq<ContainerId>,
                          deleteOk: ContainerId -> bool): (log: seq<Effect>)
    ensures cleanup.Some? ==> log == []
    ensures cleanup.None? ==> DeletedIds(log) == registered
  {
    DeleteEffectsAttemptAll(registered, deleteOk);
    if cleanup.None? then DeleteEffects(registered, deleteOk) else []
  }

  /** The daemon's create and start both succeeded, so `startContainer` registers the new id. */
  predicate Registered(a: DaemonAnswers)
  {
    a.create.Success? && a.start.Pass?
  }

  predicate AddressFound(spec: ContainerSpec, a: DaemonAnswers)
  {
    Registered(a) && a.status.Success? && spec.network in a.status.value
  }

  /** `waitAndExit` is launched: the address was found, the log stream (if any) attached, and the spec asks for it. */
  predicate WaiterLaunched(spec: ContainerSpec, a: DaemonAnswers)
  {
    AddressFound(spec, a) && (spec.hasStdout ==> a.logs.Pass?) && spec.exitProcessOnExit
  }

  predicate StartSucceeds(spec: ContainerSpec, a: DaemonAnswers)
  {
    AddressFound(spec, a) && (spec.hasStdout ==> a.logs.Pass?) && (spec.trackStats ==> a.stats.Pass?)
  }

  /** The ids `startContainer` registers: the new one once create and start succeed. */
  function Registrations(a: DaemonAnswers): (ids: seq<ContainerId>)
    ensures Registered(a) ==> ids == [a.create.value]
    ensures !Registered(a) ==> ids == []
  {
    if Registered(a) then [a.create.value] else []
  }

  /** The ids `startContainer` adds to the pending waits. */
  function Waiters(spec: ContainerSpec, a: DaemonAnswers): (ids: set<ContainerId>)
    ensures WaiterLaunched(spec, a) ==> ids == {a.create.value}
    ensures !WaiterLaunched(spec, a) ==> ids == {}
  {
    if WaiterLaunched(spec, a) then {a.create.value} else {}
  }

  function StartEffects(spec: ContainerSpec, a: DaemonAnswers): (log: seq<Effect>)
    ensures forall k :: 0 <= k < |log| ==> !log[k].DeleteRequested?
  {
    [CreateRequested(CreateOptionsOf(spec))] + if a.create.Success? then [StartRequested(a.create.value)] else []
  }

  /** One delete request per id, in order, each with the daemon's answer. */
  function DeleteEffects(ids: seq<ContainerId>, deleteOk: ContainerId -> bool): (r: seq<Effect>)
    ensures |r| == |ids|
    ensures forall k :: 0 <= k < |ids| ==> r[k] == DeleteRequested(ids[k], deleteOk(ids[k]))
  {
    if ids == [] then []
    else DeleteEffects(ids[..|ids| - 1], deleteOk) + [DeleteRequested(ids[|ids| - 1], deleteOk(ids[|ids| - 1]))]
  }

  /** The ids of the delete requests in a log, in order. */
  function DeletedIds(log: seq<Effect>): seq<ContainerId>
  {
    if log == [] then []
    else DeletedIds(log[..|log| - 1]) + (if log[|log| - 1].DeleteRequested? then [log[|log| - 1].id] else [])
  }

  lemma {:induction false} DeletedIdsAppend(front: seq<Effect>, back: seq<Effect>)
    ensures DeletedIds(front + back) == DeletedIds(front) + DeletedIds(back)
    decreases |back|
  {
    if back == [] {
      assert front + back == front;
    } else {
      var last := |back| - 1;
      assert (front + back)[..|front + back| - 1] == front + back[..last];
      DeletedIdsAppend(front, back[..last]);
    }
  }

  /** A batch removal attempts every id, whatever the daemon answers for any of them. */
  lemma {:induction false} DeleteEffectsAttemptAll(ids: seq<ContainerId>, deleteOk: ContainerId -> bool)
    ensures DeletedIds(DeleteEffects(ids, deleteOk)) == ids
  {
    if ids != [] {
      var front, last := ids[..|ids| - 1], ids[|ids| - 1];
      var request := DeleteRequested(last, deleteOk(last));
      assert DeleteEffects(ids, deleteOk) == DeleteEffects(front, deleteOk) + [request];
      assert [request][..0] == [];
      assert DeletedIds([request]) == [last];
      DeleteEffectsAttemptAll(front, deleteOk);
      DeletedIdsAppend(DeleteEffects(front, deleteOk), [request]);
      assert front + [last] == ids;
    }
  }

  lemma NoDeletesIn(log: seq<Effect>)
    requires forall k :: 0 <= k < |log| ==> !log[k].DeleteRequested?
    ensures DeletedIds(log) == []
  {
    if log != [] {
      NoDeletesIn(log[..|log| - 1]);
    }
  }

  /** What `startContainer` returns; `memory` is overwritten by each stats event. */
  class ContainerHandle {
    const id: ContainerId
    const ipAddress: string
    var memory: nat

    constructor (id: ContainerId, ipAddress: string)
      ensures this.id == id && this.ipAddress == ipAddress && memory == 0
    {
      this.id := id;
      this.ipAddress := ipAddress;
      memory := 0;
    }

    /** A stats event: the last reported usage wins. */
    method OnStats(usage: nat)
      modifies this`memory
      ensures memory == usage
    {
      memory := usage;
    }
  }

  /**
   * The module-level state of docker.ts: the registry `containersStarted`,
   * the once-only cleanup (`removeAllContainersPromise`, represented by the
   * ids its batch removes) and the containers with a pending `waitAndExit`.
   */
  class Session {
    var containersStarted: seq<ContainerId>
    var cleanup: Option<seq<ContainerId>>
    var waiting: set<ContainerId>
    ghost var effects: seq<Effect>

    /**
     * The cleanup snapshot is a prefix of the registry, and the delete
     * requests ever made are exactly that snapshot, once each.
     */
    ghost predicate Valid()
      reads this
    {
      && (cleanup.Some? ==> cleanup.value <= containersStarted)
      && DeletedIds(effects) == (if cleanup.Some? then cleanup.value else [])
    }

    constructor ()
      ensures Valid()
      ensures containersStarted == [] && cleanup.None? && waiting == {} && effects == []
    {
      containersStarted, cleanup, waiting, effects := [], None, {}, [];
    }

    /**
     * `startContainer`: create, start, register, look up the address, attach
     * the log stream, launch `waitAndExit`, attach the stats stream. The id is
     * registered as soon as create and start succeed, before any later step
     * can fail.
     */
    method StartContainer(spec: ContainerSpec, answers: DaemonAnswers) returns (r: Result<ContainerHandle, StartError>)
      requires Valid()
      modifies this`containersStarted, this`waiting, this`effects
      ensures Valid()
      ensures effects == old(effects) + StartEffects(spec, answers)
      ensures containersStarted == old(containersStarted) + Registrations(answers)
      ensures waiting == old(waiting) + Waiters(spec, answers)
      ensures r.Success? <==> StartSucceeds(spec, answers)
      ensures r.Success? ==> fresh(r.value) && r.value.id == answers.create.value
      ensures r.Success? ==> r.value.ipAddress == answers.status.value[spec.network] && r.value.memory == 0
    {
      Record(StartEffects(spec, answers));
      if answers.create.Failure? {
        r := Failure(CreateFailed(answers.create.error));
      } else if answers.start.Fail? {
        r := Failure(StartFailed(answers.create.value, answers.start.error));
      } else {
        containersStarted := containersStarted + [answers.create.value];
        r := Lookup(spec, answers);
      }
    }

    /** The steps of `startContainer` after registration. */
    method Lookup(spec: ContainerSpec, answers: DaemonAnswers) returns (r: Result<ContainerHandle, StartError>)
      requires Registered(answers)
      modifies this`waiting
      ensures waiting == old(waiting) + Waiters(spec, answers)
      ensures r.Success? <==> StartSucceeds(spec, answers)
      ensures r.Success? ==> fresh(r.value) && r.value.id == answers.create.value
      ensures r.Success? ==> r.value.ipAddress == answers.status.value[spec.network] && r.value.memory == 0
    {
      var id := answers.create.value;
      if answers.status.Failure? {
        return Failure(StatusFailed(id, answers.status.error));
      }
      if spec.network !in answers.status.value {
        return Failure(NetworkAttachmentMissing(id));
      }
      var ipAddress := answers.status.value[spec.network];
      if spec.hasStdout && answers.logs.Fail? {
        return Failure(LogsFailed(id, answers.logs.error));
      }
      if spec.exitProcessOnExit {
        waiting := waiting + {id};
      }
      var handle := new ContainerHandle(id, ipAddress);
      if spec.trackStats && answers.stats.Fail? {
        return Failure(StatsFailed(id, answers.stats.error));
      }
      r := Success(handle);
    }

    /** Appends requests other than deletes to the log. */
    ghost method Record(log: seq<Effect>)
      requires Valid()
      requires forall k :: 0 <= k < |log| ==> !log[k].DeleteRequested?
      modifies this`effects
      ensures Valid() && effects == old(effects) + log
    {
      NoDeletesIn(log);
      DeletedIdsAppend(effects, log);
      effects := effects + log;
    }

    /** `removeContainers`: a forced delete of every id; failures are settled, never propagated. */
    method RemoveContainers(ids: seq<ContainerId>, deleteOk: ContainerId -> bool)
      modifies this`effects
      ensures effects == old(effects) + DeleteEffects(ids, deleteOk)
    {
      for k := 0 to |ids|
        invariant effects == old(effects) + DeleteEffects(ids[..k], deleteOk)
      {
        assert ids[..k + 1][..k] == ids[..k];
        effects := effects + [DeleteRequested(ids[k], deleteOk(ids[k]))];
      }
      assert ids[..|ids|] == ids;
    }

    /**
     * `removeAllContainers`: the first call launches the batch removal of
     * the ids registered at that moment; every call returns that same batch.
     */
    method RemoveAllContainers(deleteOk: ContainerId -> bool) returns (removed: seq<ContainerId>)
      requires Valid()
      modifies this`cleanup, this`effects
      ensures Valid()
      ensures cleanup.Some? && removed == cleanup.value
      ensures old(cleanup).Some? ==> cleanup == old(cleanup) && effects == old(effects)
      ensures old(cleanup).None? ==>
        cleanup == Some(containersStarted) && effects == old(effects) + DeleteEffects(containersStarted, deleteOk)
      ensures effects == old(effects) + CleanupEffects(old(cleanup), containersStarted, deleteOk)
    {
      if cleanup.None? {
        cleanup := Some(containersStarted);
        DeleteEffectsAttemptAll(containersStarted, deleteOk);
        DeletedIdsAppend(effects, DeleteEffects(containersStarted, deleteOk));
        RemoveContainers(containersStarted, deleteOk);
      }
      removed := cleanup.value;
    }

    /**
     * The continuation of `waitAndExit` when container `id` exits with
     * `statusCode`: nothing if no wait is pending for it or cleanup has
     * begun; otherwise cleanup runs and the process exits with that code.
     */
    method OnContainerExit(id: ContainerId, statusCode: int, deleteOk: ContainerId -> bool)
      requires Valid()
      modifies this`cleanup, this`waiting, this`effects
      ensures Valid()
      ensures waiting == old(waiting) - {id}
      ensures id !in old(waiting) || old(cleanup).Some? ==> cleanup == old(cleanup) && effects == old(effects)
      ensures id in old(waiting) && old(cleanup).None? ==>
        cleanup == Some(containersStarted) &&
        effects == old(effects) + DeleteEffects(containersStarted, deleteOk) + [ProcessExit(statusCode)]
    {
      if id in waiting {
        waiting := waiting - {id};
        if cleanup.None? {
          CleanupAndExit(statusCode, deleteOk);
        }
      }
    }

    /** The SIGINT handler: exit at once with nothing registered, otherwise after cleanup. */
    method OnSigint(deleteOk: ContainerId -> bool)
      requires Valid()
      modifies this`cleanup, this`effects
      ensures Valid()
      ensures containersStarted == [] ==> cleanup == old(cleanup) && effects == old(effects) + [ProcessExit(0)]
      ensures containersStarted != [] && old(cleanup).Some? ==>
        cleanup == old(cleanup) && effects == old(effects) + [ProcessExit(0)]
      ensures containersStarted != [] && old(cleanup).None? ==>
        cleanup == Some(containersStarted) &&
        effects == old(effects) + DeleteEffects(containersStarted, deleteOk) + [ProcessExit(0)]
    {
      if containersStarted != [] {
        CleanupAndExit(0, deleteOk);
      } else {
        Record([ProcessExit(0)]);
      }
    }

    /** `await removeAllContainers(); process.exit(code)`. */
    method CleanupAndExit(code: int, deleteOk: ContainerId -> bool)
      requires Valid()
      modifies this`cleanup, this`effects
      ensures Valid()
      ensures old(cleanup).Some? ==> cleanup == old(cleanup) && effects == old(effects) + [ProcessExit(code)]
      ensures old(cleanup).None? ==>
        cleanup == Some(containersStarted) &&
        effects == old(effects) + DeleteEffects(containersStarted, deleteOk) + [ProcessExit(code)]
    {
      var _ := RemoveAllContainers(deleteOk);
      Record([ProcessExit(code)]);
    }

    /** `ensureNetworkExists`: list, then create only when no listed name matches exactly. */
    method EnsureNetworkExists(name: string, listed: Result<seq<string>, string>, created: Outcome<string>)
      returns (r: Outcome<string>)
      requires Valid()
      modifies this`effects
      ensures Valid()
      ensures listed.Success? && !NetworkExists(listed.value, name) ==>
        effects == old(effects) + [NetworkCreateRequested(name)] && (r.Pass? <==> created.Pass?)
      ensures listed.Failure? || NetworkExists(listed.value, name) ==> effects == old(effects)
      ensures listed.Failure? ==> r == Fail(listed.error)
      ensures listed.Success? && NetworkExists(listed.value, name) ==> r.Pass?
      ensures effects == old(effects) + NetworkEffects(name, listed)
      ensures r.Pass? <==> NetworkReady(name, listed, created)
    {
      if listed.Failure? {
        return Fail(listed.error);
      }
      if !NetworkExists(listed.value, name) {
        DeletedIdsAppend(effects, [NetworkCreateRequested(name)]);
        effects := effects + [NetworkCreateRequested(name)];
        if created.Fail? {
          return Fail(created.error);
        }
      }
      r := Pass;
    }
  }
}

=== FILE: json.dfy ===
/**
 * JSON values as trees. Serialisation and parsing by the libraries (serde_json,
 * JSON.stringify, JSON.parse) are not modelled: a text on the wire is a
 * `Document`, either the serialisation of a tree or text that is not JSON.
 * Object members are a map, so key order and duplicate keys are abstracted away.
 */
module Json {

  datatype Json =
    | JNull
    | JBool(b: bool)
    | JNumber(n: int)
    | JString(s: string)
    | JArray(items: seq<Json>)
    | JObject(fields: map<string, Json>)

  /** A text received from the wire: the serialisation of a JSON tree, or text that is not JSON. */
  datatype Document = Parsed(value: Json) | Malformed(text: string)

  /** What a JavaScript property read `v.key` gives on a value produced by `JSON.parse`. */
  datatype Property = Defined(value: Json) | Undefined | ThrowsTypeError

  /**
   * Property access on a parsed value, for the keys the relay reads: an
   * object yields its own member (or undefined), `null` throws a TypeError,
   * and no string, number, boolean or array has, or inherits, a property
   * named `type` or `payload`. (Other keys, such as `length` or
   * `constructor`, are inherited and are not modelled.)
   */
  function ReadProperty(v: Json, key: string): (p: Property)
    requires key == "type" || key == "payload"
    ensures p.ThrowsTypeError? <==> v.JNull?
    ensures p.Defined? <==> v.JObject? && key in v.fields
    ensures p.Defined? ==> p.value == v.fields[key]
  {
    match v
    case JNull => ThrowsTypeError
    case JObject(fields) => if key in fields then Defined(fields[key]) else Undefined
    case _ => Undefined
  }
}

=== FILE: messages.dfy ===
/**
 * The chat wire protocol of the benchmark client (client/src/messages.rs):
 * adjacently tagged JSON objects `{"type": <variant>, "payload": <content>}`
 * with camelCase variant names, over the JSON trees of module Json.
 */
module Messages {
  import opened Wrappers
  import opened Json

  const TypeKey := "type"
  const PayloadKey := "payload"

  /** The only message a client sends; its tag is "sendMessage". */
  datatype ClientMessage = SendMessage(text: string)

  /** A chat message as the client receives it. */
  datatype Message = Message(username: string, message: string, timestamp: string)

  /** The only message a client receives; its one variant is tagged "message". */
  datatype ServerMessage = ServerMessageOf(message: Message)

  /** Why serde rejects a JSON tree (which error wins when several apply is not modelled). */
  datatype DecodeError =
    | NotJson
    | NotAnObject
    | MissingField(name: string)
    | InvalidType(name: string)
    | UnknownVariant(tag: string)

  /** serde serialisation of a ClientMessage. */
  function EncodeClientMessage(m: ClientMessage): (j: Json)
    ensures j.JObject? && j.fields.Keys == {TypeKey, PayloadKey}
    ensures j.fields[TypeKey] == JString("sendMessage")
    ensures j.fields[PayloadKey] == JString(m.text)
  {
    JObject(map[TypeKey := JString("sendMessage"), PayloadKey := JString(m.text)])
  }

  /** A required string member of a struct, as serde reads it (unknown members are ignored). */
  function StringField(fields: map<string, Json>, name: string): (r: Result<string, DecodeError>)
    ensures r.Success? <==> name in fields && fields[name].JString?
    ensures r.Success? ==> fields[name] == JString(r.value)
  {
    if name !in fields then Failure(MissingField(name))
    else match fields[name]
      case JString(s) => Success(s)
      case _ => Failure(InvalidType(name))
  }

  /** serde deserialisation of the struct Message from its object form. */
  function DecodeMessage(j: Json): (r: Result<Message, DecodeError>)
    ensures r.Success? <==>
      j.JObject? && StringField(j.fields, "username").Success? &&
      StringField(j.fields, "message").Success? && StringField(j.fields, "timestamp").Success?
    ensures r.Success? ==>
      j.fields["username"] == JString(r.value.username) &&
      j.fields["message"] == JString(r.value.message) &&
      j.fields["timestamp"] == JString(r.value.timestamp)
  {
    match j
    case JObject(fields) =>
      var username :- StringField(fields, "username");
      var message :- StringField(fields, "message");
      var timestamp :- StringField(fields, "timestamp");
      Success(Message(username, message, timestamp))
    case _ => Failure(NotAnObject)
  }

  /** serde deserialisation of ServerMessage: the tag must be "message" and the content a Message. */
  function DecodeServerMessage(j: Json): (r: Result<ServerMessage, DecodeError>)
    ensures r.Success? <==>
      j.JObject? && TypeKey in j.fields && j.fields[TypeKey] == JString("message") &&
      PayloadKey in j.fields && DecodeMessage(j.fields[PayloadKey]).Success?
    ensures r.Success? ==> r.value.message == DecodeMessage(j.fields[PayloadKey]).value
  {
    match j
    case JObject(fields) =>
      if TypeKey !in fields then Failure(MissingField(TypeKey))
      else
        (match fields[TypeKey]
         case JString(tag) =>
           if tag != "message" then Failure(UnknownVariant(tag))
           else if PayloadKey !in fields then Failure(MissingField(PayloadKey))
           else
             var m :- DecodeMessage(fields[PayloadKey]);
             Success(ServerMessageOf(m))
         case _ => Failure(InvalidType(TypeKey)))
    case _ => Failure(NotAnObject)
  }

  /** The object form of a ServerMessage; the client never writes one, so this is the decoder's reference inverse. */
  function EncodeServerMessage(m: ServerMessage): Json
  {
    JObject(map[
      TypeKey := JString("message"),
      PayloadKey := JObject(map[
        "username" := JString(m.message.username),
        "message" := JString(m.message.message),
        "timestamp" := JString(m.message.timestamp)])])
  }

  /** Decoding inverts the object encoding. */
  lemma DecodeEncodeServerMessage(m: ServerMessage)
    ensures DecodeServerMessage(EncodeServerMessage(m)) == Success(m)
  {
    var payload := EncodeServerMessage(m).fields[PayloadKey];
    assert DecodeMessage(payload) == Success(m.message);
  }
}

=== FILE: strings.dfy ===
/**
 * The string operations the sources lean on, with the semantics of the
 * language each one comes from: JavaScript's `split`/`join` on a one-character
 * separator, `indexOf`/`replace` with a string pattern, Rust's `contains`,
 * and decimal rendering and reading of natural numbers.
 */
module Strings {
  import opened Wrappers

  /** JavaScript `s.split(sep)` for a one-character separator: empty fields are kept. */
  function Split(s: string, sep: char): (parts: seq<string>)
    ensures |parts| >= 1
    ensures forall i :: 0 <= i < |parts| ==> sep !in parts[i]
  {
    if s == [] then [""]
    else
      var rest := Split(s[1..], sep);
      if s[0] == sep then [""] + rest
      else [[s[0]] + rest[0]] + rest[1..]
  }

  /** JavaScript `parts.join(sep)`. */
  function Join(parts: seq<string>, sep: char): string
  {
    if |parts| == 0 then ""
    else if |parts| == 1 then parts[0]
    else parts[0] + [sep] + Join(parts[1..], sep)
  }

  /** A character other than the separator that no part holds is not in the join. */
  lemma {:induction false} JoinAvoids(parts: seq<string>, sep: char, c: char)
    requires c != sep
    requires forall i :: 0 <= i < |parts| ==> c !in parts[i]
    ensures c !in Join(parts, sep)
  {
    if |parts| > 1 {
      JoinAvoids(parts[1..], sep, c);
    }
  }

  /** Joining the pieces of a split gives back the original string. */
  lemma {:induction false} JoinSplit(s: string, sep: char)
    ensures Join(Split(s, sep), sep) == s
  {
    if s != [] {
      JoinSplit(s[1..], sep);
      var rest := Split(s[1..], sep);
      var parts := Split(s, sep);
      if s[0] == sep {
        assert parts[1..] == rest;
        calc {
          Join(parts, sep);
          "" + [sep] + Join(rest, sep);
          [s[0]] + s[1..];
        }
      } else if |rest| == 1 {
        assert parts == [[s[0]] + rest[0]];
      } else {
        assert parts[1..] == rest[1..];
        calc {
          Join(parts, sep);
          ([s[0]] + rest[0]) + [sep] + Join(rest[1..], sep);
          [s[0]] + (rest[0] + [sep] + Join(rest[1..], sep));
          [s[0]] + Join(rest, sep);
        }
      }
      assert [s[0]] + s[1..] == s;
    }
  }

  lemma {:induction false} SplitWithoutSeparator(a: string, sep: char)
    requires sep !in a
    ensures Split(a, sep) == [a]
  {
    if a != [] {
      SplitWithoutSeparator(a[1..], sep);
      assert [a[0]] + a[1..] == a;
    }
  }

  lemma {:induction false} SplitAfterField(a: string, b: string, sep: char)
    requires sep !in a
    ensures Split(a + [sep] + b, sep) == [a] + Split(b, sep)
  {
    var s := a + [sep] + b;
    if a == [] {
      assert s[1..] == b;
    } else {
      assert s[1..] == a[1..] + [sep] + b;
      SplitAfterField(a[1..], b, sep);
      assert [a[0]] + a[1..] == a;
    }
  }

  /** Splitting a join of separator-free fields gives back the fields. */
  lemma {:induction false} SplitJoin(parts: seq<string>, sep: char)
    requires |parts| >= 1
    requires forall i :: 0 <= i < |parts| ==> sep !in parts[i]
    ensures Split(Join(parts, sep), sep) == parts
  {
    if |parts| == 1 {
      SplitWithoutSeparator(parts[0], sep);
    } else {
      SplitAfterField(parts[0], Join(parts[1..], sep), sep);
      SplitJoin(parts[1..], sep);
      assert [parts[0]] + parts[1..] == parts;
    }
  }

  /** `pat` occurs in `s` starting at index `i`. */
  predicate OccursAt(s: string, pat: string, i: nat)
  {
    i + |pat| <= |s| && s[i..i + |pat|] == pat
  }

  /** JavaScript `s.indexOf(pat, from)`: the first occurrence at or after `from`. */
  function IndexOfFrom(s: string, pat: string, from: nat): (r: Option<nat>)
    requires from <= |s|
    ensures r.Some? ==> from <= r.value && OccursAt(s, pat, r.value)
    ensures forall j: nat :: from <= j && (r.None? || j < r.value) ==> !OccursAt(s, pat, j)
    decreases |s| - from
  {
    if OccursAt(s, pat, from) then Some(from)
    else if from + |pat| >= |s| then None
    else IndexOfFrom(s, pat, from + 1)
  }

  function IndexOf(s: string, pat: string): Option<nat>
  {
    IndexOfFrom(s, pat, 0)
  }

  /** Rust `s.contains(pat)`. */
  predicate Contains(s: string, pat: string)
  {
    IndexOf(s, pat).Some?
  }

  lemma ContainsIffOccurs(s: string, pat: string)
    ensures Contains(s, pat) <==> exists i: nat :: OccursAt(s, pat, i)
  {
  }

  /** JavaScript `s.replace(pat, rep)` with a string pattern: only the first occurrence is replaced. */
  function ReplaceFirst(s: string, pat: string, rep: string): (r: string)
    ensures IndexOf(s, pat).None? ==> r == s
    ensures IndexOf(s, pat).Some? ==>
      var i := IndexOf(s, pat).value;
      && |r| == |s| - |pat| + |rep|
      && r[..i] == s[..i] && r[i..i + |rep|] == rep && r[i + |rep|..] == s[i + |pat|..]
  {
    match IndexOf(s, pat)
    case None => s
    case Some(i) => s[..i] + rep + s[i + |pat|..]
  }

  /** The first occurrence is the one `IndexOf` finds. */
  lemma IndexOfFindsFirst(s: string, pat: string, i: nat)
    requires OccursAt(s, pat, i)
    requires forall j: nat :: j < i ==> !OccursAt(s, pat, j)
    ensures IndexOf(s, pat) == Some(i)
  {
  }

  /** The first occurrence, and only it, is replaced. */
  lemma ReplaceFirstAt(s: string, pat: string, rep: string, i: nat)
    requires OccursAt(s, pat, i)
    requires forall j: nat :: j < i ==> !OccursAt(s, pat, j)
    ensures ReplaceFirst(s, pat, rep) == s[..i] + rep + s[i + |pat|..]
  {
    IndexOfFindsFirst(s, pat, i);
  }

  /** Without an occurrence the string is unchanged. */
  lemma ReplaceFirstAbsent(s: string, pat: string, rep: string)
    requires forall j: nat :: !OccursAt(s, pat, j)
    ensures ReplaceFirst(s, pat, rep) == s
  {
  }

  /**
   * After `ReplaceFirst` replaces the first occurrence (at `i`), every later
   * occurrence is still present, shifted by the difference in length.
   */
  lemma ReplaceFirstKeepsLaterOccurrences(s: string, pat: string, rep: string, i: nat, j: nat)
    requires IndexOf(s, pat) == Some(i)
    requires i + |pat| <= j && OccursAt(s, pat, j)
    ensures OccursAt(ReplaceFirst(s, pat, rep), pat, j - |pat| + |rep|)
  {
    var r := ReplaceFirst(s, pat, rep);
    var tail := r[i + |rep|..];
    assert tail == s[i + |pat|..];
    var k := j - |pat| + |rep|;
    var d := j - i - |pat|;
    assert r[k..k + |pat|] == tail[d..d + |pat|];
    assert tail[d..d + |pat|] == s[j..j + |pat|];
  }

  /** JavaScript `s.replace(/c/g, d)`: every `c` becomes `d`. */
  function ReplaceChar(s: string, c: char, d: char): (r: string)
    ensures |r| == |s|
    ensures forall k :: 0 <= k < |s| && s[k] != c ==> r[k] == s[k]
    ensures forall k :: 0 <= k < |s| && s[k] == c ==> r[k] == d
    ensures c != d ==> c !in r
  {
    seq(|s|, k requires 0 <= k < |s| => if s[k] == c then d else s[k])
  }

  predicate IsDigit(c: char)
  {
    '0' <= c <= '9'
  }

  predicate AllDigits(s: string)
  {
    forall k :: 0 <= k < |s| ==> IsDigit(s[k])
  }

  function DigitChar(d: nat): (c: char)
    requires d < 10
    ensures IsDigit(c)
  {
    ('0' as int + d) as char
  }

  function DigitValue(c: char): (d: nat)
    requires IsDigit(c)
    ensures d < 10 && DigitChar(d) == c
  {
    c as int - '0' as int
  }

  /** The value of a string of decimal digits, read most significant digit first. */
  function DecimalValue(s: string): nat
    requires AllDigits(s)
  {
    if s == [] then 0 else DecimalValue(s[..|s| - 1]) * 10 + DigitValue(s[|s| - 1])
  }

  /** A natural number rendered in decimal without leading zeros, as JavaScript and Rust print it. */
  function NatToDecimal(n: nat): (s: string)
    ensures |s| >= 1 && AllDigits(s)
    ensures n == 0 ==> s == "0"
    ensures n > 0 ==> s[0] != '0'
    ensures |s| > 1 ==> s[0] != '0'
  {
    if n < 10 then [DigitChar(n)] else NatToDecimal(n / 10) + [DigitChar(n % 10)]
  }

  /** Reading back a rendered number gives the number. */
  lemma {:induction false} DecimalRoundTrip(n: nat)
    ensures DecimalValue(NatToDecimal(n)) == n
  {
    var s := NatToDecimal(n);
    if n >= 10 {
      DecimalRoundTrip(n / 10);
      assert s[..|s| - 1] == NatToDecimal(n / 10);
    }
  }
}

=== FILE: telemetry.dfy ===
/**
 * The benchmark orchestrator and result dumper (telemetry/src/index.ts):
 * the per-client dumps updated from each client's stdout reports, the
 * batch-gated loop that starts one client container after another, and the
 * periodic aggregation into CSV rows. Clocks are parameters; the options
 * arrive already validated, as non-negative integers.
 */
module Telemetry {
  import opened Wrappers
  import opened Strings
  import opened Json
  import Docker

  datatype Options = Options(
    serverImage: string,
    url: string,
    clientsPerRoom: nat,
    transport: string,
    loopDelay: nat,
    totalClients: nat,
    serverDelay: nat,
    network: string,
    memory: nat)

  /** One client's latest gauges and its loop accumulators (also the shape of a report). */
  datatype ClientDump = ClientDump(roomsCreated: nat, clientsConnected: nat, loopAvgSum: nat, loopAvgCount: nat)

  const ZeroDump := ClientDump(0, 0, 0, 0)

  const ReportKeys: set<string> := {"roomsCreated", "clientsConnected", "loopAvgSum", "loopAvgCount"}

  predicate NaturalMember(fields: map<string, Json>, key: string)
  {
    key in fields && fields[key].JNumber? && fields[key].n >= 0
  }

  /** A report read from the JSON a client prints, when its four members are non-negative integers. */
  function ReportFromJson(j: Json): (r: Option<ClientDump>)
    ensures r.Some? ==> j.JObject? && ReportKeys <= j.fields.Keys
    ensures r.Some? ==> j.fields["roomsCreated"] == JNumber(r.value.roomsCreated)
    ensures r.Some? ==> j.fields["clientsConnected"] == JNumber(r.value.clientsConnected)
    ensures r.Some? ==> j.fields["loopAvgSum"] == JNumber(r.value.loopAvgSum)
    ensures r.Some? ==> j.fields["loopAvgCount"] == JNumber(r.value.loopAvgCount)
    ensures r.None? <==> !j.JObject? || exists k :: k in ReportKeys && !NaturalMember(j.fields, k)
  {
    match j
    case JObject(f) =>
      if && NaturalMember(f, "roomsCreated") && NaturalMember(f, "clientsConnected")
         && NaturalMember(f, "loopAvgSum") && NaturalMember(f, "loopAvgCount")
      then Some(ClientDump(f["roomsCreated"].n, f["clientsConnected"].n, f["loopAvgSum"].n, f["loopAvgCount"].n))
      else None
    case _ => None
  }

  /** `onStdout`'s update: the gauges are overwritten, the accumulators added to. */
  function Absorb(dump: ClientDump, report: ClientDump): (r: ClientDump)
    ensures r.roomsCreated == report.roomsCreated && r.clientsConnected == report.clientsConnected
    ensures r.loopAvgSum - dump.loopAvgSum == report.loopAvgSum
    ensures r.loopAvgCount - dump.loopAvgCount == report.loopAvgCount
  {
    ClientDump(report.roomsCreated, report.clientsConnected,
               dump.loopAvgSum + report.loopAvgSum, dump.loopAvgCount + report.loopAvgCount)
  }

  /** `Math.floor(totalClients / clientsPerRoom)` as a JavaScript number. */
  datatype RoomTarget = Rooms(n: nat) | Infinity | NaN

  function NumberOfRooms(totalClients: nat, clientsPerRoom: nat): (t: RoomTarget)
    ensures clientsPerRoom > 0 ==> t.Rooms? && t.n * clientsPerRoom <= totalClients < (t.n + 1) * clientsPerRoom
    ensures clientsPerRoom == 0 ==> t == if totalClients == 0 then NaN else Infinity
  {
    if clientsPerRoom == 0 then (if totalClients == 0 then NaN else Infinity)
    else Rooms(totalClients / clientsPerRoom)
  }

  /** `roomsCreated >= numberOfRooms`: never true of Infinity or NaN. */
  predicate TargetReached(roomsCreated: nat, target: RoomTarget): (b: bool)
    ensures !target.Rooms? ==> !b
    ensures target.Rooms? ==> (b <==> target.n <= roomsCreated)
  {
    target.Rooms? && roomsCreated >= target.n
  }

  /** The room target as the template literal prints it: a decimal number, "Infinity" or "NaN". */
  function TargetText(t: RoomTarget): (s: string)
    ensures ' ' !in s
    ensures t.Rooms? ==> AllDigits(s) && DecimalValue(s) == t.n && (|s| > 1 ==> s[0] != '0')
    ensures t == Infinity ==> s == "Infinity"
    ensures t == NaN ==> s == "NaN"
  {
    match t
    case Rooms(n) => DecimalRoundTrip(n); NatToDecimal(n)
    case Infinity => "Infinity"
    case NaN => "NaN"
  }

  const ServerPlaceholder := "{server}"
  const ClientImage := "rtc-mem-bench-client"
  const ClientBinary := "./rtc-mem-bench-client"

  /** The client's server URL: the first `{server}` in the template becomes the server's address. */
  function ClientUrl(template: string, serverIp: string): (url: string)
    ensures (forall j: nat :: !OccursAt(template, ServerPlaceholder, j)) ==> url == template
    ensures Contains(template, ServerPlaceholder) ==> Contains(url, serverIp)
  {
    var url := ReplaceFirst(template, ServerPlaceholder, serverIp);
    if IndexOf(template, ServerPlaceholder).Some? then
      var i := IndexOf(template, ServerPlaceholder).value;
      assert OccursAt(url, serverIp, i);
      ContainsIffOccurs(url, serverIp);
      url
    else
      url
  }

  /** The address takes the place of the template's first `{server}`; the rest of the template is kept. */
  lemma ClientUrlFillsPlaceholder(template: string, serverIp: string, i: nat)
    requires OccursAt(template, ServerPlaceholder, i)
    requires forall j: nat :: j < i ==> !OccursAt(template, ServerPlaceholder, j)
    ensures ClientUrl(template, serverIp) == template[..i] + serverIp + template[i + 8..]
  {
    ReplaceFirstAt(template, ServerPlaceholder, serverIp, i);
  }

  /** A template without `{server}` is the URL as it stands. */
  lemma ClientUrlWithoutPlaceholder(template: string, serverIp: string)
    requires forall j: nat :: !OccursAt(template, ServerPlaceholder, j)
    ensures ClientUrl(template, serverIp) == template
  {
    ReplaceFirstAbsent(template, ServerPlaceholder, serverIp);
  }

  /** The words of the client command line, in order. */
  function CommandWords(options: Options, url: string): seq<string>
  {
    [ClientBinary, options.transport, url,
     TargetText(NumberOfRooms(options.totalClients, options.clientsPerRoom)),
     NatToDecimal(options.clientsPerRoom), NatToDecimal(options.loopDelay)]
  }

  /** The fixed words, the room target and the printed numbers hold no space; the transport and URL are as given. */
  lemma CommandWordsSpaceFree(options: Options, url: string)
    requires ' ' !in options.transport && ' ' !in url
    ensures forall i :: 0 <= i < |CommandWords(options, url)| ==> ' ' !in CommandWords(options, url)[i]
  {
    var w := CommandWords(options, url);
    forall i | 0 <= i < |w|
      ensures ' ' !in w[i]
    {
      if i == 4 || i == 5 {
        var d := w[i];
        assert AllDigits(d);
        assert forall k :: 0 <= k < |d| ==> d[k] != ' ';
      }
    }
  }

  /**
   * The command string of a client container: the six words separated by
   * single spaces, so that it splits back into them when the transport and
   * URL have no spaces.
   */
  function ClientCommand(options: Options, url: string): (cmd: string)
    ensures ' ' !in options.transport && ' ' !in url ==> Split(cmd, ' ') == CommandWords(options, url)
  {
    var w := CommandWords(options, url);
    if ' ' !in options.transport && ' ' !in url then
      CommandWordsSpaceFree(options, url);
      SplitJoin(w, ' ');
      Join(w, ' ')
    else
      Join(w, ' ')
  }

  /** When the transport and URL have no spaces, the container's Cmd is exactly the six command words. */
  lemma ClientCmdIsCommandWords(options: Options, url: string)
    requires ' ' !in options.transport && ' ' !in url
    ensures Docker.CmdOf(Some(ClientCommand(options, url))) == Some(CommandWords(options, url))
  {
  }

  /** The server container: the configured image, network and memory limit, with stats tracking. */
  function ServerSpec(options: Options): (spec: Docker.ContainerSpec)
    ensures spec.image == options.serverImage && spec.network == options.network
    ensures spec.cmd.None? && spec.memory == Some(options.memory)
    ensures spec.trackStats && spec.exitProcessOnExit && !spec.hasStdout
    ensures Docker.CreateOptionsOf(spec).memory == Some(options.memory)
  {
    Docker.ContainerSpec(options.serverImage, options.network, None, Some(options.memory), false, true, true)
  }

  /** A client container: its command and stdout reports; `exitProcessOnExit` keeps its default, true. */
  function ClientSpec(options: Options, cmd: string): (spec: Docker.ContainerSpec)
    ensures spec.image == ClientImage && spec.network == options.network
    ensures spec.cmd == Some(cmd) && spec.memory.None?
    ensures spec.hasStdout && spec.exitProcessOnExit && !spec.trackStats
    ensures Docker.CreateOptionsOf(spec).cmd == Docker.CmdOf(Some(cmd))
  {
    Docker.ContainerSpec(ClientImage, options.network, Some(cmd), None, true, true, false)
  }

  /** `./results/<serverImage>-<time>.csv` with every ':' of the time replaced by '_'. */
  function ResultFileName(serverImage: string, isoTime: string): (name: string)
    ensures |name| == 15 + |serverImage| + |isoTime|
    ensures name == "./results/" + serverImage + "-" + name[11 + |serverImage|..|name| - 4] + ".csv"
    ensures |name[11 + |serverImage|..|name| - 4]| == |isoTime|
    ensures ':' !in name[11 + |serverImage|..|name| - 4]
    ensures forall k :: 0 <= k < |isoTime| ==>
      name[11 + |serverImage| + k] == (if isoTime[k] == ':' then '_' else isoTime[k])
  {
    var time := ReplaceChar(isoTime, ':', '_');
    var name := "./results/" + serverImage + "-" + time + ".csv";
    assert name[11 + |serverImage|..|name| - 4] == time;
    name
  }

  /** The mean loop delay of a row: undefined (JavaScript's NaN or Infinity) without samples. */
  datatype Mean = NoSamples | Average(sum: nat, count: nat)

  function MeanOf(sum: nat, count: nat): (m: Mean)
    ensures m.Average? <==> count > 0
    ensures m.Average? ==> m.sum == sum && m.count == count
  {
    if count == 0 then NoSamples else Average(sum, count)
  }

  /**
   * One CSV row: time, rooms created, clients connected, the summed loop
   * samples and their count (whose quotient is the mean column), server memory.
   */
  datatype Row = Row(time: string, roomsCreated: nat, clientsConnected: nat, loopAvgSum: nat, loopAvgCount: nat,
                     serverMemory: nat)

  /** The mean a row prints. */
  function RowMean(row: Row): Mean
  {
    MeanOf(row.loopAvgSum, row.loopAvgCount)
  }

  /** Field-wise sums over the dumps. */
  function Total(dumps: seq<ClientDump>): ClientDump
  {
    if dumps == [] then ZeroDump
    else
      var t := Total(dumps[..|dumps| - 1]);
      var d := dumps[|dumps| - 1];
      ClientDump(t.roomsCreated + d.roomsCreated, t.clientsConnected + d.clientsConnected,
                 t.loopAvgSum + d.loopAvgSum, t.loopAvgCount + d.loopAvgCount)
  }

  /** The loop samples summed over the written rows. */
  function WrittenSum(rows: seq<Row>): nat
  {
    if rows == [] then 0 else WrittenSum(rows[..|rows| - 1]) + rows[|rows| - 1].loopAvgSum
  }

  /** The number of loop samples over the written rows. */
  function WrittenCount(rows: seq<Row>): nat
  {
    if rows == [] then 0 else WrittenCount(rows[..|rows| - 1]) + rows[|rows| - 1].loopAvgCount
  }

  /** Writing a row adds its samples to the written totals. */
  lemma WrittenAppend(rows: seq<Row>, row: Row)
    ensures WrittenSum(rows + [row]) == WrittenSum(rows) + row.loopAvgSum
    ensures WrittenCount(rows + [row]) == WrittenCount(rows) + row.loopAvgCount
  {
    assert (rows + [row])[..|rows|] == rows;
  }

  /** The dumps after a tick: accumulators zeroed, gauges kept. */
  function Drained(dumps: seq<ClientDump>): (r: seq<ClientDump>)
    ensures |r| == |dumps|
  {
    seq(|dumps|, i requires 0 <= i < |dumps| => dumps[i].(loopAvgSum := 0, loopAvgCount := 0))
  }

  /** The row a tick writes for the dumps' values before the tick. */
  function RowOf(dumps: seq<ClientDump>, time: string, serverMemory: nat): (r: Row)
    ensures r.time == time && r.serverMemory == serverMemory
    ensures r.roomsCreated == Total(dumps).roomsCreated && r.clientsConnected == Total(dumps).clientsConnected
    ensures RowMean(r).Average? <==> Total(dumps).loopAvgCount > 0
    ensures RowMean(r).Average? ==>
      RowMean(r).sum == Total(dumps).loopAvgSum && RowMean(r).count == Total(dumps).loopAvgCount
  {
    var t := Total(dumps);
    Row(time, t.roomsCreated, t.clientsConnected, t.loopAvgSum, t.loopAvgCount, serverMemory)
  }

  /** Draining keeps the gauge totals and leaves nothing in the accumulators. */
  lemma {:induction false} DrainedTotal(dumps: seq<ClientDump>)
    ensures Total(Drained(dumps)) ==
      ClientDump(Total(dumps).roomsCreated, Total(dumps).clientsConnected, 0, 0)
  {
    if dumps != [] {
      var front := dumps[..|dumps| - 1];
      assert Drained(dumps)[..|dumps| - 1] == Drained(front);
      DrainedTotal(front);
    }
  }

  /** The five columns of a row, given the text JavaScript prints for its mean. */
  function CsvColumns(row: Row, meanText: string): seq<string>
  {
    [row.time, NatToDecimal(row.roomsCreated), NatToDecimal(row.clientsConnected), meanText,
     NatToDecimal(row.serverMemory)]
  }

  /** A character that is not a digit and is in neither the time nor the mean text is in no column. */
  lemma ColumnsAvoid(row: Row, meanText: string, c: char)
    requires !IsDigit(c) && c !in row.time && c !in meanText
    ensures forall i :: 0 <= i < |CsvColumns(row, meanText)| ==> c !in CsvColumns(row, meanText)[i]
  {
    var w := CsvColumns(row, meanText);
    forall i | 0 <= i < |w|
      ensures c !in w[i]
    {
      if i == 1 || i == 2 || i == 4 {
        var d := w[i];
        assert AllDigits(d);
        assert forall k :: 0 <= k < |d| ==> d[k] != c;
      }
    }
  }

  /**
   * The line a tick writes: the columns joined by commas, then a newline,
   * which is the line's only one when the time and mean text hold none.
   */
  function CsvLine(row: Row, meanText: string): (line: string)
    ensures |line| > 0 && line[|line| - 1] == '\n'
    ensures '\n' !in row.time && '\n' !in meanText ==> '\n' !in line[..|line| - 1]
  {
    var body := Join(CsvColumns(row, meanText), ',');
    if '\n' !in row.time && '\n' !in meanText then
      ColumnsAvoid(row, meanText, '\n');
      JoinAvoids(CsvColumns(row, meanText), ',', '\n');
      assert (body + "\n")[..|body|] == body;
      body + "\n"
    else
      body + "\n"
  }

  /** A line holds exactly the five columns in order when neither the time nor the mean text holds a comma. */
  lemma CsvLineColumns(row: Row, meanText: string)
    requires ',' !in row.time && ',' !in meanText
    ensures var line := CsvLine(row, meanText);
      Split(line[..|line| - 1], ',') ==
        [row.time, NatToDecimal(row.roomsCreated), NatToDecimal(row.clientsConnected), meanText,
         NatToDecimal(row.serverMemory)]
  {
    var w := CsvColumns(row, meanText);
    var line := CsvLine(row, meanText);
    assert line[..|line| - 1] == Join(w, ',');
    ColumnsAvoid(row, meanText, ',');
    SplitJoin(w, ',');
  }

  /** `main().catch`: cleanup runs, then the error is re-thrown to the runtime. */
  method MainRejected(session: Docker.Session, deleteOk: Docker.ContainerId -> bool)
    requires session.Valid()
    modifies session`cleanup, session`effects
    ensures session.Valid() && session.cleanup.Some?
    ensures old(session.cleanup).Some? ==> session.cleanup == old(session.cleanup)
    ensures session.effects ==
      old(session.effects) + Docker.CleanupEffects(old(session.cleanup), session.containersStarted, deleteOk)
        + [Docker.UncaughtError]
  {
    var _ := session.RemoveAllContainers(deleteOk);
    session.Record([Docker.UncaughtError]);
  }

  /**
   * A run after the server has started: the dumps (`dumps`, one per client
   * batch started), whether the newest batch's promise is still unresolved
   * (`pending`; resolving an older batch's promise changes nothing), the rows
   * written to the result file, and the ghost total of every report received.
   */
  class Benchmark {
    const options: Options
    const session: Docker.Session
    const server: Docker.ContainerHandle
    const resultFile: string
    /** Every client container's spec: the server's address substituted into the URL, then the command line. */
    const batchSpec: Docker.ContainerSpec
    var dumps: seq<ClientDump>
    var pending: bool
    var running: bool
    var rows: seq<Row>
    ghost var reported: ClientDump

    /**
     * Only a started batch can be pending, and each reported loop sample is
     * either still in a dump or in exactly one written row.
     */
    ghost predicate Valid()
      reads this
    {
      && (pending ==> dumps != [])
      && Total(dumps).loopAvgSum + WrittenSum(rows) == reported.loopAvgSum
      && Total(dumps).loopAvgCount + WrittenCount(rows) == reported.loopAvgCount
    }

    constructor (options: Options, session: Docker.Session, server: Docker.ContainerHandle, startTime: string)
      ensures Valid()
      ensures this.options == options && this.session == session && this.server == server
      ensures resultFile == ResultFileName(options.serverImage, startTime)
      ensures batchSpec == ClientSpec(options, ClientCommand(options, ClientUrl(options.url, server.ipAddress)))
      ensures dumps == [] && !pending && running && rows == []
    {
      this.options := options;
      this.session := session;
      this.server := server;
      resultFile := ResultFileName(options.serverImage, startTime);
      batchSpec := ClientSpec(options, ClientCommand(options, ClientUrl(options.url, server.ipAddress)));
      dumps, pending, running, rows := [], false, true, [];
      reported := ZeroDump;
    }

    function Target(): RoomTarget
      reads this
    {
      NumberOfRooms(options.totalClients, options.clientsPerRoom)
    }

    /**
     * One turn of `while (true) await startClient(...)`: nothing while the
     * loop has ended or the current batch's promise is pending; otherwise the
     * next batch starts, and if it cannot, the loop ends and `main`'s
     * rejection handler runs.
     */
    method StepMainLoop(answers: Docker.DaemonAnswers, deleteOk: Docker.ContainerId -> bool)
      requires Valid() && session.Valid()
      modifies this`dumps, this`pending, this`running, session`containersStarted, session`waiting,
        session`effects, session`cleanup
      ensures Valid() && session.Valid()
      ensures !old(running) || old(pending) ==>
        dumps == old(dumps) && pending == old(pending) && running == old(running) &&
        session.containersStarted == old(session.containersStarted) && session.waiting == old(session.waiting) &&
        session.effects == old(session.effects) && session.cleanup == old(session.cleanup)
      ensures old(running) && !old(pending) ==>
        session.containersStarted == old(session.containersStarted) +
          Docker.Registrations(answers) &&
        session.waiting == old(session.waiting) +
          Docker.Waiters(batchSpec, answers)
      ensures old(running) && !old(pending) && Docker.StartSucceeds(batchSpec, answers) ==>
        running && pending && dumps == old(dumps) + [ZeroDump] && session.cleanup == old(session.cleanup) &&
        session.effects == old(session.effects) + Docker.StartEffects(batchSpec, answers)
      ensures old(running) && !old(pending) && !Docker.StartSucceeds(batchSpec, answers) ==>
        !running && !pending && dumps == old(dumps) && session.cleanup.Some? &&
        session.effects == old(session.effects) + Docker.StartEffects(batchSpec, answers) +
          Docker.CleanupEffects(old(session.cleanup), session.containersStarted, deleteOk) + [Docker.UncaughtError]
    {
      if running && !pending {
        StartOrReject(answers, deleteOk);
      }
    }

    /** A turn that starts a batch: if its container cannot start, the loop ends and `main` is rejected. */
    method StartOrReject(answers: Docker.DaemonAnswers, deleteOk: Docker.ContainerId -> bool)
      requires Valid() && session.Valid() && running && !pending
      modifies this`dumps, this`pending, this`running, session`containersStarted, session`waiting,
        session`effects, session`cleanup
      ensures Valid() && session.Valid()
      ensures session.containersStarted == old(session.containersStarted) + Docker.Registrations(answers)
      ensures session.waiting == old(session.waiting) + Docker.Waiters(batchSpec, answers)
      ensures Docker.StartSucceeds(batchSpec, answers) ==>
        running && pending && dumps == old(dumps) + [ZeroDump] && session.cleanup == old(session.cleanup) &&
        session.effects == old(session.effects) + Docker.StartEffects(batchSpec, answers)
      ensures !Docker.StartSucceeds(batchSpec, answers) ==>
        !running && !pending && dumps == old(dumps) && session.cleanup.Some? &&
        session.effects == old(session.effects) + Docker.StartEffects(batchSpec, answers) +
          Docker.CleanupEffects(old(session.cleanup), session.containersStarted, deleteOk) + [Docker.UncaughtError]
    {
      var started := StartBatch(answers);
      if started {
      } else {
        Abort(deleteOk);
      }
    }

    /** The loop ends because a batch could not start, and `main`'s rejection handler runs. */
    method Abort(deleteOk: Docker.ContainerId -> bool)
      requires Valid() && session.Valid()
      modifies this`running, session`cleanup, session`effects
      ensures Valid() && session.Valid() && !running && session.cleanup.Some?
      ensures session.effects ==
        old(session.effects) + Docker.CleanupEffects(old(session.cleanup), session.containersStarted, deleteOk)
          + [Docker.UncaughtError]
    {
      ghost var kept := (dumps, pending, rows, reported);
      running := false;
      MainRejected(session, deleteOk);
      assert (dumps, pending, rows, reported) == kept;
    }

    /**
     * `startClient`: the next client container is started with the client
     * URL and command, and its batch gets a zeroed dump and is pending
     * until a report reaches the room target.
     */
    method StartBatch(answers: Docker.DaemonAnswers) returns (started: bool)
      requires Valid() && session.Valid() && !pending
      modifies this`dumps, this`pending, session`containersStarted, session`waiting, session`effects
      ensures Valid() && session.Valid()
      ensures started <==> Docker.StartSucceeds(batchSpec, answers)
      ensures session.effects == old(session.effects) + Docker.StartEffects(batchSpec, answers)
      ensures session.containersStarted ==
        old(session.containersStarted) + Docker.Registrations(answers)
      ensures session.waiting ==
        old(session.waiting) + Docker.Waiters(batchSpec, answers)
      ensures started ==> dumps == old(dumps) + [ZeroDump] && pending
      ensures !started ==> dumps == old(dumps) && !pending
    {
      TotalAppendZero(dumps);
      var r := session.StartContainer(batchSpec, answers);
      started := r.Success?;
      if started {
        dumps := dumps + [ZeroDump];
        pending := true;
      }
    }

    /** A report on the stdout of batch `batch`'s client: update its dump, and resolve its promise once the target is reached. */
    method OnStdout(batch: nat, report: ClientDump)
      requires Valid() && batch < |dumps|
      modifies this`dumps, this`pending, this`reported
      ensures Valid()
      ensures dumps == old(dumps)[batch := Absorb(old(dumps)[batch], report)]
      ensures pending <==> old(pending) && !(batch == |dumps| - 1 && TargetReached(report.roomsCreated, Target()))
    {
      TotalUpdate(dumps, batch, Absorb(dumps[batch], report));
      dumps := dumps[batch := Absorb(dumps[batch], report)];
      reported := reported.(loopAvgSum := reported.loopAvgSum + report.loopAvgSum,
                            loopAvgCount := reported.loopAvgCount + report.loopAvgCount);
      if batch == |dumps| - 1 && TargetReached(report.roomsCreated, Target()) {
        pending := false;
      }
    }

    /**
     * The dumper's interval callback: sum every dump, zero each dump's
     * accumulators, and write one row with the server's current memory.
     */
    method Tick(time: string) returns (row: Row)
      requires Valid()
      modifies this`dumps, this`rows
      ensures Valid()
      ensures row == RowOf(old(dumps), time, server.memory)
      ensures dumps == Drained(old(dumps))
      ensures rows == old(rows) + [row]
    {
      ghost var before := dumps;
      var total := Drain();
      DrainedTotal(before);
      row := Row(time, total.roomsCreated, total.clientsConnected, total.loopAvgSum, total.loopAvgCount, server.memory);
      WrittenAppend(rows, row);
      rows := rows + [row];
    }

    /** The loop of the interval callback: the totals of the dumps, each dump's accumulators zeroed on the way. */
    method Drain() returns (total: ClientDump)
      modifies this`dumps
      ensures total == Total(old(dumps))
      ensures dumps == Drained(old(dumps))
    {
      var roomsCreated: nat, clientsConnected: nat, loopAvgSum: nat, loopAvgCount: nat := 0, 0, 0, 0;
      ghost var before := dumps;
      for i := 0 to |dumps|
        modifies this`dumps
        invariant |dumps| == |before|
        invariant forall k :: 0 <= k < i ==> dumps[k] == Drained(before)[k]
        invariant forall k :: i <= k < |dumps| ==> dumps[k] == before[k]
        invariant Total(before[..i]) == ClientDump(roomsCreated, clientsConnected, loopAvgSum, loopAvgCount)
      {
        var dump := dumps[i];
        assert before[..i + 1][..i] == before[..i];
        roomsCreated := roomsCreated + dump.roomsCreated;
        clientsConnected := clientsConnected + dump.clientsConnected;
        loopAvgSum := loopAvgSum + dump.loopAvgSum;
        loopAvgCount := loopAvgCount + dump.loopAvgCount;
        dumps := dumps[i := dump.(loopAvgSum := 0, loopAvgCount := 0)];
      }
      assert before[..|before|] == before;
      total := ClientDump(roomsCreated, clientsConnected, loopAvgSum, loopAvgCount);
    }
  }

  /** A zeroed dump adds nothing to the totals. */
  lemma TotalAppendZero(dumps: seq<ClientDump>)
    ensures Total(dumps + [ZeroDump]) == Total(dumps)
  {
    assert (dumps + [ZeroDump])[..|dumps|] == dumps;
  }

  /** Replacing one dump changes each of the four totals by the difference. */
  lemma {:induction false} TotalUpdate(dumps: seq<ClientDump>, i: nat, d: ClientDump)
    requires i < |dumps|
    ensures Total(dumps[i := d]).roomsCreated + dumps[i].roomsCreated == Total(dumps).roomsCreated + d.roomsCreated
    ensures Total(dumps[i := d]).clientsConnected + dumps[i].clientsConnected ==
      Total(dumps).clientsConnected + d.clientsConnected
    ensures Total(dumps[i := d]).loopAvgSum + dumps[i].loopAvgSum == Total(dumps).loopAvgSum + d.loopAvgSum
    ensures Total(dumps[i := d]).loopAvgCount + dumps[i].loopAvgCount == Total(dumps).loopAvgCount + d.loopAvgCount
  {
    var last := |dumps| - 1;
    if i < last {
      assert dumps[i := d][..last] == dumps[..last][i := d];
      TotalUpdate(dumps[..last], i, d);
    } else {
      assert dumps[i := d][..last] == dumps[..last];
    }
  }

  /**
   * `main` up to the batch loop: ensure the network, start the server
   * container, and on success set up the run. A network failure is an
   * unhandled rejection that ends the process with no cleanup; a server that
   * fails to start runs `main`'s rejection handler.
   */
  method Launch(options: Options, session: Docker.Session, networks: Result<seq<string>, string>,
                networkCreated: Outcome<string>, serverAnswers: Docker.DaemonAnswers, startTime: string,
                deleteOk: Docker.ContainerId -> bool)
    returns (r: Option<Benchmark>)
    requires session.Valid()
    modifies session
    ensures session.Valid()
    ensures r.Some? <==>
      Docker.NetworkReady(options.network, networks, networkCreated) &&
      Docker.StartSucceeds(ServerSpec(options), serverAnswers)
    ensures !Docker.NetworkReady(options.network, networks, networkCreated) ==>
      session.containersStarted == old(session.containersStarted) && session.waiting == old(session.waiting) &&
      session.cleanup == old(session.cleanup) &&
      session.effects == old(session.effects) + Docker.NetworkEffects(options.network, networks) + [Docker.UncaughtError]
    ensures Docker.NetworkReady(options.network, networks, networkCreated) ==>
      session.containersStarted == old(session.containersStarted) + Docker.Registrations(serverAnswers) &&
      session.waiting == old(session.waiting) + Docker.Waiters(ServerSpec(options), serverAnswers)
    ensures r.Some? ==>
      session.cleanup == old(session.cleanup) &&
      session.effects == old(session.effects) + Docker.NetworkEffects(options.network, networks) +
        Docker.StartEffects(ServerSpec(options), serverAnswers)
    ensures Docker.NetworkReady(options.network, networks, networkCreated) && r.None? ==>
      session.cleanup.Some? &&
      session.effects == old(session.effects) + Docker.NetworkEffects(options.network, networks) +
        Docker.StartEffects(ServerSpec(options), serverAnswers) +
        Docker.CleanupEffects(old(session.cleanup), session.containersStarted, deleteOk) + [Docker.UncaughtError]
    ensures r.Some? ==> fresh(r.value) && r.value.Valid() && r.value.session == session && r.value.options == options
    ensures r.Some? ==>
      r.value.server.id == serverAnswers.create.value &&
      r.value.server.ipAddress == serverAnswers.status.value[options.network] &&
      r.value.dumps == [] && !r.value.pending && r.value.running && r.value.rows == []
    ensures r.Some? ==>
      r.value.resultFile == ResultFileName(options.serverImage, startTime) &&
      r.value.batchSpec == ClientSpec(options, ClientCommand(options, ClientUrl(options.url, r.value.server.ipAddress)))
  {
    var network := session.EnsureNetworkExists(options.network, networks, networkCreated);
    if network.Fail? {
      session.Record([Docker.UncaughtError]);
      r := None;
    } else {
      var server := StartServer(options, session, serverAnswers, deleteOk);
      if server.Some? {
        var b := new Benchmark(options, session, server.value, startTime);
        assert b.server == server.value;
        r := Some(b);
      } else {
        r := None;
      }
    }
  }

  /** The server start of `main`, after the network is ready: on failure, `main`'s rejection handler runs. */
  method StartServer(options: Options, session: Docker.Session, serverAnswers: Docker.DaemonAnswers,
                     deleteOk: Docker.ContainerId -> bool)
    returns (server: Option<Docker.ContainerHandle>)
    requires session.Valid()
    modifies session
    ensures session.Valid()
    ensures server.Some? <==> Docker.StartSucceeds(ServerSpec(options), serverAnswers)
    ensures session.containersStarted == old(session.containersStarted) + Docker.Registrations(serverAnswers)
    ensures session.waiting == old(session.waiting) + Docker.Waiters(ServerSpec(options), serverAnswers)
    ensures server.Some? ==>
      session.cleanup == old(session.cleanup) &&
      session.effects == old(session.effects) + Docker.StartEffects(ServerSpec(options), serverAnswers)
    ensures server.None? ==>
      session.cleanup.Some? &&
      session.effects == old(session.effects) + Docker.StartEffects(ServerSpec(options), serverAnswers) +
        Docker.CleanupEffects(old(session.cleanup), session.containersStarted, deleteOk) + [Docker.UncaughtError]
    ensures server.Some? ==>
      fresh(server.value) && server.value.id == serverAnswers.create.value &&
      server.value.ipAddress == serverAnswers.status.value[options.network]
  {
    var spec := ServerSpec(options);
    var started := session.StartContainer(spec, serverAnswers);
    if started.Success? {
      server := Some(started.value);
    } else {
      MainRejected(session, deleteOk);
      server := None;
    }
  }
}

=== FILE: transports.dfy ===
/** Transport selection of the benchmark client (client/src/transporters/mod.rs). */
module Transports {
  import opened Wrappers
  import opened Urls
  import WsTransport

  /** The transports the client knows; WebSocket is the only one. */
  datatype TransportType = Ws

  datatype TransportError = UnknownTransport(name: string)

  /** `TransportType::from_str`: an exact match on "ws", with no trimming or case folding. */
  function FromStr(s: string): (r: Result<TransportType, TransportError>)
    ensures r.Success? <==> s == "ws"
    ensures r.Success? ==> r.value == Ws
    ensures r.Failure? ==> r.error == UnknownTransport(s)
  {
    if s == "ws" then Success(Ws) else Failure(UnknownTransport(s))
  }

  /** `TransportType::connect`: dispatch on the transport; its handshake URL is the only part modelled. */
  function Connect(t: TransportType, baseUrl: Url, username: string, room: string, schemeSettable: bool)
    : Result<Url, WsTransport.ConnectError>
  {
    match t
    case Ws => WsTransport.HandshakeUrl(baseUrl, username, room, schemeSettable)
  }

  /** Every parsed transport connects through the WebSocket transport. */
  lemma ConnectIsWs(s: string, baseUrl: Url, username: string, room: string, schemeSettable: bool)
    requires FromStr(s).Success?
    ensures s == "ws"
    ensures Connect(FromStr(s).value, baseUrl, username, room, schemeSettable) ==
      WsTransport.HandshakeUrl(baseUrl, username, room, schemeSettable)
  {
  }
}

=== FILE: urls.dfy ===
/**
 * URLs as the parts the model reads: the scheme, the path and the query as an
 * ordered list of name/value pairs. Percent-encoding and the URL parsers of the
 * `url` crate and of the JavaScript runtime are not modelled.
 */
module Urls {
  import opened Wrappers

  datatype Url = Url(scheme: string, host: string, path: string, query: seq<(string, string)>)

  /** `URLSearchParams.get(name)`: the value of the FIRST pair with that name. */
  function QueryGet(query: seq<(string, string)>, name: string): (r: Option<string>)
    ensures r.None? <==> forall k :: 0 <= k < |query| ==> query[k].0 != name
    ensures r.Some? ==> exists k :: 0 <= k < |query| && query[k] == (name, r.value) &&
                          forall m :: 0 <= m < k ==> query[m].0 != name
  {
    if |query| == 0 then None
    else if query[0].0 == name then Some(query[0].1)
    else
      var rest := QueryGet(query[1..], name);
      assert forall k :: 1 <= k < |query| ==> query[k] == query[1..][k - 1];
      rest
  }

  /** Pairs appended after existing ones are seen only for names the existing pairs lack. */
  lemma {:induction false} QueryGetAppend(front: seq<(string, string)>, back: seq<(string, string)>, name: string)
    ensures QueryGet(front + back, name) ==
      if QueryGet(front, name).Some? then QueryGet(front, name) else QueryGet(back, name)
  {
    if |front| > 0 {
      assert (front + back)[1..] == front[1..] + back;
      QueryGetAppend(front[1..], back, name);
    } else {
      assert front + back == back;
    }
  }
}

=== FILE: wrappers.dfy ===
/** Failure-carrying result types shared by every module of the model. */
module Wrappers {

  datatype Option<+T> = None | Some(value: T)

  /** A value or the error that the source would raise or return instead. */
  datatype Result<+R, +E> = Success(value: R) | Failure(error: E) {
    predicate IsFailure() {
      Failure?
    }

    function PropagateFailure<U>(): Result<U, E>
      requires Failure?
    {
      Failure(error)
    }

    function Extract(): R
      requires Success?
    {
      value
    }
  }

  /** Success without a value, or an error. */
  datatype Outcome<+E> = Pass | Fail(error: E)
}

=== FILE: ws_transport.dfy ===
/**
 * The WebSocket transport of the benchmark client (client/src/transporters/ws.rs):
 * the frame `send_message` writes, the frame scan of `wait_for_message`, and
 * the handshake URL `connect` builds. The socket is a sink of frames written
 * so far and a stream of items the peer delivers, consumed in order.
 */
module WsTransport {
  import opened Wrappers
  import opened Json
  import opened Messages
  import opened Urls

  /** A WebSocket message as tungstenite delivers it. */
  datatype Frame = Text(body: Document) | Binary | Ping | Pong | Close

  /** One item of the receiving stream: a frame, or the transport error tungstenite reports instead. */
  datatype Incoming = Received(frame: Frame) | StreamError(reason: string)

  datatype WaitError = Transport(reason: string) | Decode(error: DecodeError) | NoMessageReceived

  datatype SendError = SinkError(reason: string)

  datatype ConnectError = CannotSetScheme

  /** The one Text frame `send_message` writes: the serialisation of ClientMessage::SendMessage. */
  function SendFrame(message: string): (f: Frame)
    ensures f.Text? && f.body.Parsed? && f.body.value.JObject?
    ensures f.body.value.fields.Keys == {TypeKey, PayloadKey}
    ensures f.body.value.fields[TypeKey] == JString("sendMessage") && f.body.value.fields[PayloadKey] == JString(message)
  {
    Text(Parsed(EncodeClientMessage(SendMessage(message))))
  }

  /** What a Text frame's body decodes to: its Message, or the decoding error. */
  function DecodeText(body: Document): (r: Result<Message, WaitError>)
    ensures r.Success? <==> body.Parsed? && DecodeServerMessage(body.value).Success?
    ensures r.Success? ==> r.value == DecodeServerMessage(body.value).value.message
  {
    match body
    case Malformed(_) => Failure(Decode(NotJson))
    case Parsed(j) =>
      match DecodeServerMessage(j)
      case Success(ServerMessageOf(m)) => Success(m)
      case Failure(e) => Failure(Decode(e))
  }

  /**
   * The outcome of `wait_for_message` on the stream `rx` when `i` items are
   * already consumed, and how many are consumed afterwards.
   */
  function Scan(rx: seq<Incoming>, i: nat): (r: (Result<Message, WaitError>, nat))
    requires i <= |rx|
    ensures i <= r.1 <= |rx|
    decreases |rx| - i
  {
    if i == |rx| then (Failure(NoMessageReceived), i)
    else match rx[i]
      case StreamError(e) => (Failure(Transport(e)), i + 1)
      case Received(Text(body)) => (DecodeText(body), i + 1)
      case Received(_) => Scan(rx, i + 1)
  }

  /** Items i..j-1 are all frames other than Text. */
  ghost predicate NonTextBetween(rx: seq<Incoming>, i: nat, j: nat)
    requires i <= j <= |rx|
  {
    forall k :: i <= k < j ==> rx[k].Received? && !rx[k].frame.Text?
  }

  /** Frames other than Text are skipped: they change neither the result nor where the scan stops. */
  lemma {:induction false} ScanSkipsNonText(rx: seq<Incoming>, i: nat, j: nat)
    requires i <= j <= |rx|
    requires NonTextBetween(rx, i, j)
    ensures Scan(rx, i) == Scan(rx, j)
    decreases j - i
  {
    if i < j {
      ScanSkipsNonText(rx, i + 1, j);
    }
  }

  /**
   * The first Text frame decides: its decoding is the result, whether it
   * succeeds or fails, and nothing after it is consumed.
   */
  lemma FirstTextDecides(rx: seq<Incoming>, i: nat, j: nat)
    requires i <= j < |rx| && NonTextBetween(rx, i, j)
    requires rx[j].Received? && rx[j].frame.Text?
    ensures Scan(rx, i) == (DecodeText(rx[j].frame.body), j + 1)
  {
    ScanSkipsNonText(rx, i, j);
  }

  /** A transport error before the first Text frame is the result. */
  lemma StreamErrorFails(rx: seq<Incoming>, i: nat, j: nat)
    requires i <= j < |rx| && NonTextBetween(rx, i, j)
    requires rx[j].StreamError?
    ensures Scan(rx, i) == (Failure(Transport(rx[j].reason)), j + 1)
  {
    ScanSkipsNonText(rx, i, j);
  }

  /** A stream that ends before any Text frame gives "No message received". */
  lemma EndWithoutTextFails(rx: seq<Incoming>, i: nat)
    requires i <= |rx| && NonTextBetween(rx, i, |rx|)
    ensures Scan(rx, i) == (Failure(NoMessageReceived), |rx|)
  {
    ScanSkipsNonText(rx, i, |rx|);
  }

  /** The handshake URL of `connect`: scheme "ws", then the pairs room and username after any existing pairs. */
  function HandshakeUrl(base: Url, username: string, room: string, schemeSettable: bool): (r: Result<Url, ConnectError>)
    ensures r.Success? <==> schemeSettable
    ensures r.Success? ==> r.value.scheme == "ws" && r.value.host == base.host && r.value.path == base.path
    ensures r.Success? ==> r.value.query == base.query + [("room", room), ("username", username)]
  {
    if !schemeSettable then Failure(CannotSetScheme)
    else Success(base.(scheme := "ws", query := base.query + [("room", room), ("username", username)]))
  }

  /** A connected socket: the frames written to its sink and the items its stream delivers. */
  class WsTransport {
    var tx: seq<Frame>
    var rx: seq<Incoming>
    var consumed: nat

    ghost predicate Valid()
      reads this
    {
      consumed <= |rx|
    }

    constructor (incoming: seq<Incoming>)
      ensures Valid() && tx == [] && rx == incoming && consumed == 0
    {
      tx := [];
      rx := incoming;
      consumed := 0;
    }

    /** Writes one Text frame holding the encoded SendMessage, unless the sink fails. */
    method SendMessage(message: string, sinkFailure: Option<string>) returns (r: Outcome<SendError>)
      modifies this`tx
      ensures r.Pass? <==> sinkFailure.None?
      ensures r.Fail? ==> r.error == SinkError(sinkFailure.value) && tx == old(tx)
      ensures r.Pass? ==> tx == old(tx) + [SendFrame(message)]
    {
      if sinkFailure.Some? {
        return Fail(SinkError(sinkFailure.value));
      }
      tx := tx + [SendFrame(message)];
      r := Pass;
    }

    /** Reads items until the first Text frame, a transport error or the end of the stream. */
    method WaitForMessage() returns (r: Result<Message, WaitError>)
      requires Valid()
      modifies this`consumed
      ensures Valid()
      ensures (r, consumed) == Scan(rx, old(consumed))
    {
      while consumed < |rx|
        invariant old(consumed) <= consumed <= |rx|
        invariant Scan(rx, old(consumed)) == Scan(rx, consumed)
        decreases |rx| - consumed
      {
        var item := rx[consumed];
        consumed := consumed + 1;
        match item
        case StreamError(e) =>
          return Failure(Transport(e));
        case Received(frame) =>
          if frame.Text? {
            return DecodeText(frame.body);
          }
      }
      r := Failure(NoMessageReceived);
    }
  }
}
